=== FILE: README.md ===
# Floriday magic wand, modelled in Dafny

Floriday magic wand cuts a flower photo out of its background and uploads
the result to the Floriday media library. It does this from a command line
(`main` in `cli.py`) and from a small web server (`MagicWandHandler` in
`web.py`). Both front ends use one API client (`FloridayClient` in
`client.py`).

This project models:

- **The client** (`client.dfy`, module `Client`). It covers:
  - the token check when a client is built;
  - how the URL is put together;
  - the multipart/form-data body that `_build_multipart_body` writes by hand (RFC 7578, with the delimiter syntax of section 5.1.1 of RFC 2046);
  - how `_request_json`, `upload_media` and `list_media` reshape the decoded answer.

  The body builder is a method with the same loop as the source. It is proved equal to a part-by-part definition of the body (`MultipartBody`). Lemmas then show where each field and the file sit in that body.
- **The pipeline both front ends run** (`workflow.dfy`, module `Workflow`): `remove_background`, then `FloridayClient()`, then `upload_media`. The spec functions `Publish` and `Pipeline` give the files left behind, the calls made and the outcome. Their contracts fix the order of the calls.
- **The web handler** (`web.dfy`, module `Web`). It is a class whose state is:
  - the file system (`files`);
  - the responses written so far (`sent`);
  - the collaborators called so far (`calls`).

  `DoGet` and `DoPost` choose the status code and payload, normalise the title and name the processed file. Once the image is copied into the temporary upload, `DoPost` deletes that file on every path. The modelled exits that write no answer and let the exception escape are:
  - a body that `cgi` cannot read as a form;
  - a temporary file that `NamedTemporaryFile` cannot create;
  - a copy into the temporary file that fails. This leaves the temporary file behind (see "## Findings").

  Exceptions the model does not represent are listed under "## Left out".
- **The command line** (`cli.dfy`, module `Cli`). `RunMain` names the output file and always runs the removal first. It stops after the removal in a dry run, and otherwise builds one client and uploads. It prints what `main` prints, and lets every exception escape.
- **Background removal** (`magic_wand.dfy`, module `MagicWand`). It is a step that may fail: a missing input, a missing `rembg`, or the remover's own failure.

Supporting modules:

- `Text` models `str.encode()` as UTF-8, `str(int)`, `rstrip` and `strip`, and containment of byte strings.
- `Paths` models `Path.name`, `Path.stem` and the `/` operator.
- `Json` models decoded JSON values and `str()` of them.
- `Failures` holds the exception kinds, and `Trace` the collaborator calls.
- `Wrappers` holds `Option` and `Result`.

Things outside the program become inputs:

- **The file system** is a map from path to bytes.
- **The HTTP exchange** is the service's answer (`HttpOutcome`): a body with what `json.loads` makes of it, an HTTP error, or no answer.
- **The UUID digits of the boundary** are a string parameter `hex`.
- **`mimetypes.guess_type`** is a parameter `mimeGuess`.
- **`FloridayConfig()`** is an explicit, immutable `Config` value, `ambient`.
- **The background remover** is a `Remover`: either missing, or giving the cut-out bytes or an error.

## Model

| member | source | states |
|---|---|---|
| Client.NewClient | src/floriday_magic_wand/client.py:27-30 | construction fails with ValueError and the fixed message exactly when the token of the given (or else the ambient) configuration is empty; otherwise the client keeps that configuration unchanged |
| Client.Url | src/floriday_magic_wand/client.py:32-33 | the URL ends in the endpoint; before it stands a prefix of the base URL that leaves only '/' behind and does not itself end in '/', so there is never a double slash at the join |
| Client.UrlIgnoresTrailingSlashes | src/floriday_magic_wand/client.py:32-33 | adding any number of '/' to the base URL leaves the URL unchanged |
| Text.RStripIgnoresTrailing | src/floriday_magic_wand/client.py:33 | appending more of the stripped character does not change what `rstrip` keeps |
| Text.RStrip | src/floriday_magic_wand/client.py:33 | `rstrip(c)` keeps a prefix, removes only copies of c, and what it keeps does not end in c |
| Client.UrlExample | tests/test_client.py:7-15 | base "https://api.floriday.io/" and endpoint "/suppliers/v1/media" give "https://api.floriday.io/suppliers/v1/media", with no double slash |
| Text.RStripUnique | src/floriday_magic_wand/client.py:33 | `rstrip('/')` is the one prefix that leaves only '/' behind and does not itself end in '/' |
| Client.FormFields | src/floriday_magic_wand/client.py:45-49 | with a title, "title" is the first form field; every metadata key is among the form fields |
| Client.DictUpdateKeys | src/floriday_magic_wand/client.py:49 | `d.update(m)` keeps every key of d and holds every key of m |
| Client.DictUpdateKeepsHead | src/floriday_magic_wand/client.py:47-49 | `update` never moves the key of the first entry |
| Client.FormFieldsShape | src/floriday_magic_wand/client.py:45-49 | a non-empty title comes first under "title", with the metadata's own "title" overriding its value in place; the other metadata entries follow in their order; with no title the fields are the metadata |
| Client.TitleOverridden | src/floriday_magic_wand/client.py:47-49 | `update` with metadata holding "title" changes the title's value but not its first position, and drops no other entry |
| Client.DictUpdateFresh | src/floriday_magic_wand/client.py:49 | `dict.update` with new, distinct keys appends them in order |
| Client.DictUpdateConcat | src/floriday_magic_wand/client.py:49 | updating with a+b is updating with a, then with b |
| Client.Boundary | src/floriday_magic_wand/client.py:42 | the boundary starts with "----FloridayMagicWand" |
| Client.MimeOrDefault | src/floriday_magic_wand/client.py:61 | a guessed type is used when there is one, "application/octet-stream" otherwise; never empty |
| Client.MultipartContentType | src/floriday_magic_wand/client.py:76 | the Content-Type is "multipart/form-data; boundary=" followed by exactly the boundary |
| Client.BuildMultipartBody | src/floriday_magic_wand/client.py:35-77 | the loop over the form fields and the final CRLF join produce exactly the body made of every field's part in field order, then the file part; the Content-Type names the boundary |
| Client.FieldLines | src/floriday_magic_wand/client.py:51-59 | the field loop's lines, each ended by CRLF, are every field's part in field order |
| Client.FieldLinesStep | src/floriday_magic_wand/client.py:51-59 | each turn of the field loop adds exactly that field's part: `--boundary`, `Content-Disposition: form-data; name="<key>"`, an empty line and the value, each followed by CRLF |
| Client.FileLinesStep | src/floriday_magic_wand/client.py:61-75 | the file's seven lines, joined by CRLF after the field lines, give the field parts followed by the file part, which ends in the close delimiter and a CRLF |
| Client.JoinSnoc | src/floriday_magic_wand/client.py:75 | joining lines whose last line is empty ends every line before it with the separator |
| Client.TerminatedConcat | src/floriday_magic_wand/client.py:52-75 | lines extended one batch after another give the concatenation of the batches' output |
| Client.FieldPartsConcat | src/floriday_magic_wand/client.py:51-59 | the parts of a concatenation of fields are the parts of each piece, in order |
| Client.BodyFraming | src/floriday_magic_wand/client.py:54-75 | every body opens with `--boundary` CRLF and ends with `--boundary--` CRLF |
| Client.FieldPartInBody | src/floriday_magic_wand/client.py:51-59 | each field's whole part occurs contiguously in the body |
| Client.FieldInBody | src/floriday_magic_wand/client.py:55-57 | each field's `name="<key>"` and its value's bytes occur in the body |
| Client.FileInBody | src/floriday_magic_wand/client.py:66-69 | `filename="<name>"` and the file's bytes occur unchanged in the body |
| Client.TitleAndFileInBody | tests/test_client.py:18-29 | with a title, and metadata that does not set its own "title", the body contains `name="title"`, the title, `filename="<name>"` and the file bytes, and the Content-Type carries a "----FloridayMagicWand" boundary |
| Text.Encode | src/floriday_magic_wand/client.py:54-57 | `.encode()` gives between one and four UTF-8 bytes per character |
| Text.EncodeConcat | src/floriday_magic_wand/client.py:54-70 | `.encode()` of an f-string is the concatenation of its encoded pieces |
| Client.RequestFailedMessage | src/floriday_magic_wand/client.py:85 | the RuntimeError text carries the status code as decimal digits that read back as the code, then the body text |
| Text.NatToString | src/floriday_magic_wand/client.py:85 | `str(code)` is a non-empty run of decimal digits with no leading zero |
| Text.NatToStringRoundTrip | src/floriday_magic_wand/client.py:85 | the decimal text of a status code reads back as that code |
| Client.RequestJson | src/floriday_magic_wand/client.py:79-89 | an HTTP error, and only that, becomes a RuntimeError with the code and body; an empty body becomes `{}`; other failures pass through unchanged |
| Client.AuthHeaders | src/floriday_magic_wand/client.py:108-111 | every request carries `Authorization: Bearer <token>` and `Accept: application/json`, each once |
| Client.UploadRequest | src/floriday_magic_wand/client.py:104-113 | the upload is a POST of the body to the media URL with the configured timeout; its headers are the token, the JSON Accept and the multipart Content-Type, each once |
| Client.ListRequest | src/floriday_magic_wand/client.py:120-127 | the listing is a GET of the media URL without a body, with the configured timeout and the token and Accept headers |
| Client.UploadAnswer | src/floriday_magic_wand/client.py:99-116 | a missing file raises FileNotFoundError "Bestand niet gevonden: <path>" before any request; a successful result is always a mapping |
| Client.UploadMedia | src/floriday_magic_wand/client.py:91-116 | a request is sent exactly when the file exists, and it carries the body built from the form fields and the file's bytes under the file's name; the result is `UploadAnswer` |
| Client.UploadResult | src/floriday_magic_wand/client.py:115-116 | a decoded mapping is returned unchanged, any other decoded value is wrapped as `{"items": value}`, and request errors propagate unchanged |
| Client.UploadExample | tests/test_client.py:32-46 | the answer `{"id":"media-1"}` is returned as it is |
| Client.ObjectsOnly | src/floriday_magic_wand/client.py:130 | the filter keeps exactly the mappings of the list and never lengthens it |
| Client.ObjectsOnlyConcat | src/floriday_magic_wand/client.py:130 | the filter keeps the order: filtering a concatenation concatenates the filtered pieces |
| Client.ObjectsOnlyIdentity | src/floriday_magic_wand/client.py:130 | a list comes back whole exactly when all its elements are mappings |
| Json.Repr | src/floriday_magic_wand/cli.py:44 | `print(response)` (and `str(result)` at web.py:162) shows a list in brackets, a dict in braces and a string in single quotes |
| Json.ReprObjectExample | src/floriday_magic_wand/cli.py:44 | `{"id": "media-1"}` prints as `{'id': 'media-1'}` |
| Json.ReprListExample | src/floriday_magic_wand/cli.py:44 | `[-12, false, null]` prints as `[-12, False, None]` |
| Json.Get | src/floriday_magic_wand/client.py:132 | `dict.get` finds a value exactly when the key is present, and the value found is stored under that key |
| Client.ListMedia | src/floriday_magic_wand/client.py:118-135 | the request sent is `ListRequest` for this client; request errors propagate unchanged; every listed item is a mapping |
| Client.ListMediaItems | src/floriday_magic_wand/client.py:128-135 | a top-level list gives its mappings in order; a mapping whose "items" is a list gives that list's mappings in order; every other shape gives [] |
| Client.ListMediaExample | tests/test_client.py:49-59 | `{"items":[{"id":"1","title":"Rose"}]}` lists exactly that one item |
| MagicWand.RemoveBackground | src/floriday_magic_wand/magic_wand.py:6-28 | a missing input raises FileNotFoundError with the input path and a missing `rembg` raises RuntimeError, both leaving the files as they were; success writes the remover's bytes to the output path and returns that path; in the model every failure leaves the files unchanged (two source exits that do not are under "## Left out") |
| MagicWand.RemovalKeepsOtherFiles | src/floriday_magic_wand/magic_wand.py:24-26 | removal writes no file other than the output |
| Workflow.Publish | src/floriday_magic_wand/web.py:153-154 | publishing writes no file; the client is constructed first; the cleaned file is uploaded with the given title exactly when construction succeeded; a construction error is the outcome, and otherwise the outcome is `upload_media`'s answer (`UploadAnswer`); a successful outcome is a mapping |
| Workflow.Pipeline | src/floriday_magic_wand/web.py:152-157 | removal is always the first call, and the only one when it fails, with its exception as the outcome; after a successful removal come exactly publishing's calls and outcome; the pipeline succeeds exactly when the removal, the client's construction and the upload all succeed |
| Workflow.PublishRun | src/floriday_magic_wand/cli.py:41-42 | constructing the client and uploading the cut-out with no metadata makes the calls and gives the outcome `Publish` describes |
| Web.NormaliseTitle | src/floriday_magic_wand/web.py:143-144 | the title passed on is the form value unchanged if it is a string with a non-whitespace character, and None otherwise |
| Text.Strip | src/floriday_magic_wand/web.py:144 | `strip()` gives a run of its input with only whitespace before and after it, which neither starts nor ends with whitespace, and "" exactly when every character is whitespace |
| Web.NormaliseTitleExamples | src/floriday_magic_wand/web.py:143-144 | a whitespace-only title and a non-text title become None; " Rose " is kept with its spaces |
| Workflow.CutoutPath | src/floriday_magic_wand/cli.py:32 | the cut-out path (also web.py:150) is `Path(dir) / (stem + "-transparent.png")`, and its last component is the input's stem followed by "-transparent.png", whatever directories are involved |
| Web.ProcessedPathJoins | src/floriday_magic_wand/web.py:150 | the processed path is `output/<temp stem>-transparent.png` |
| Web.ProcessedPathOfTemp | src/floriday_magic_wand/web.py:146-150 | a temporary file `<dir>/<base>.upload` is processed into `output/<base>-transparent.png` |
| Paths.Name | src/floriday_magic_wand/web.py:150 | `Path.name` holds no separator |
| Paths.Stem | src/floriday_magic_wand/web.py:150 | `Path.stem` is a prefix of `Path.name` and holds no separator |
| Paths.JoinPath | src/floriday_magic_wand/cli.py:32 | `Path(dir) / name` ends in the name, with a separator before it unless the name is the whole path |
| Paths.StemOfSuffixedName | src/floriday_magic_wand/web.py:150 | the stem of `<dir>/<base>.<ext>` is `<base>`, and its name is `<base>.<ext>` |
| Paths.JoinPathName | src/floriday_magic_wand/cli.py:32 | joining a plain file name onto any directory gives a path whose name is that file name |
| Web.MediaReply | src/floriday_magic_wand/web.py:114-120 | the media answer is JSON; 200 exactly when the client is built and the listing succeeds, with the items (all mappings) as the payload; otherwise 502 with `{"error": <message>}` |
| Web.UploadReply | src/floriday_magic_wand/web.py:155-162 | the upload answer is the page; 200 with "Upload succesvol: <result>" exactly when the pipeline succeeded, and otherwise 502 with "Upload mislukt: <message>" |
| Web.UploadSendsProcessedImage | src/floriday_magic_wand/web.py:150-154 | after a successful removal, the upload sends the processed bytes under the name `<temp stem>-transparent.png`, and those bytes occur in the body |
| Web.Handler.Send | src/floriday_magic_wand/web.py:94-108 | writing an answer appends exactly it to the answers and changes nothing else |
| Web.Handler.DoGet | src/floriday_magic_wand/web.py:110-122 | `/` answers 200 with the page and calls nothing; `/api/media` constructs a client, lists only if that succeeded, and answers `MediaReply`; any other path answers 404 `{"error": "Not found"}`; no file changes |
| Web.Handler.Remove | src/floriday_magic_wand/web.py:153 | the handler's files and the result are what `remove_background` gives, and one removal call is recorded |
| Web.Handler.PublishCleaned | src/floriday_magic_wand/web.py:154 | construction and upload make `Publish`'s calls and give its outcome, changing no file |
| Web.Handler.RunPipeline | src/floriday_magic_wand/web.py:152-157 | the `try` block leaves the files, the calls and the outcome that `Pipeline` gives |
| Web.Handler.Discard | src/floriday_magic_wand/web.py:158-160 | after the `finally` clause the temporary file no longer exists, and nothing else changed |
| Web.UploadServed | src/floriday_magic_wand/web.py:152-162 | after the image is staged: the pipeline's files without the temporary file, the pipeline's calls after the earlier ones, and one more answer, `UploadReply` of the pipeline's outcome |
| Web.Handler.ProcessUpload | src/floriday_magic_wand/web.py:152-162 | the `try`/`finally` leaves the handler as `UploadServed` says, and the temporary file is gone |
| Web.Handler.ServeUpload | src/floriday_magic_wand/web.py:146-162 | a temporary file that cannot be created raises with nothing changed; a failed copy raises with no answer and no call, leaving the partly written temporary file; a full copy leaves the handler as `UploadServed` says, with the temporary file gone |
| Web.Handler.ServeUploadGuarded | src/floriday_magic_wand/web.py:146-162 | with the creation and the copy inside the `try`, the temporary file never survives and exactly one answer is written; a failed creation or copy is answered 502 like any other failure |
| Web.CopyFailureLeaks | src/floriday_magic_wand/web.py:146-148 | a request whose copy fails after one byte leaves `/tmp/rose.upload` holding that byte, with no answer written |
| Web.Handler.DoPost | src/floriday_magic_wand/web.py:124-162 | a path other than `/upload` answers 404; an unreadable form raises before anything else; a missing or file-less `image` answers 400 before any file is created or any call is made; a temporary file that cannot be created raises with the files unchanged; a failed copy raises and leaves the temporary file; otherwise the normalised title and `output/<temp stem>-transparent.png` go to the pipeline and the temporary file is gone afterwards; a request either raises with no answer and no call, or gets exactly one answer and leaves no temporary file |
| Cli.OutputPathOfInput | tests/test_cli.py:9-11 | the input `<dir>/rose.jpg` with output directory `out` gives `out/rose-transparent.png` (stated for any base name and extension) |
| Cli.RunMain | src/floriday_magic_wand/cli.py:29-44 | removal runs first, into `<output_dir>/<stem>-transparent.png`; its failure escapes with nothing printed; a dry run prints the saved path and the dry-run notice and calls nothing else; otherwise the calls and the outcome are the pipeline's, and the response is printed only after a successful upload |
| Cli.MainAgrees | src/floriday_magic_wand/cli.py:34-44 | (the relation `RunMain` ensures) the removal is the first call; a failed removal raises with nothing printed; a dry run prints two lines and calls nothing more; otherwise the calls and outcome are the pipeline's and the answer is printed only on success |
| Cli.RunMainInto | src/floriday_magic_wand/cli.py:34-44 | `main` once the output path is known: the same relation to the pipeline as above |
| Cli.MainOrder | src/floriday_magic_wand/cli.py:34-44 | `remove_background` is called exactly once and first; no client is built and nothing is uploaded in a dry run or after a failed removal; otherwise exactly one client is built, and the cut-out is uploaded once with `args.title` when construction succeeded; `main` returns normally exactly when every step it ran succeeded |

## Left out

- `parse_args` is not modelled. `Cli.Args` holds its result, and the default "output" of `--output-dir` is not enforced.
- `FloridayConfig` defaults are not modelled: reading the environment at import time and `int()` of the timeout. The configuration is an explicit value.
- Network I/O is left out. `urlopen` and its timeout, the `UnicodeDecodeError` of a non-UTF-8 body, and the text of a transport error (`str(URLError)`) become the `HttpOutcome` input.
- Request header names are kept as written. urllib's re-capitalisation of them (`Content-type`) is not modelled.
- `json.loads` is not modelled. Its result, or its error text, is part of the input. JSON numbers are integers only; floats are not modelled.
- Metadata values are held as the text `str(value)` gives. Calling `str()` on non-string values is not modelled.
- `str()` of the upload result (`Json.Repr`) follows Python's repr, except that the escaping of quotes and control characters inside strings is not modelled.
- `Path` normalisation is not modelled beyond dropping trailing slashes: repeated slashes, `.` components and absolute versus relative paths. `str(path)` of the cut-out is the path string itself.
- `remove_background`'s image processing, its `mkdir` of the output directory, and the bytes `rembg` produces are left out. The remover is an input that yields bytes or an error.
- `MagicWand.RemoveBackground`: two exits of magic_wand.py differ from the model. An input path that exists but is a directory makes `read_bytes()` raise `IsADirectoryError`; the file map cannot hold a directory, so the model raises `FileNotFoundError` instead. A `write_bytes` that fails part-way leaves a truncated output file (and loses any earlier content there); the model's failures leave the files unchanged.
- `render_index_html` is not modelled. A page is represented by its status and message only. The message goes into the HTML without escaping; that is how the source behaves and it is not changed here.
- `cgi.FieldStorage` parsing is not modelled. The form's `image` and `title` entries arrive already classified (`ImageField`, `TitleField`). A body that cannot be read as a form arrives as `FormUnreadable` with the exception it raises.
- Response headers and the `wfile` writes are not modelled. A response is recorded as one element of `sent`.
- The order between writing the failure page and deleting the temporary file is not modelled. `ProcessUpload` deletes the file, then records the answer. In the source's `except` branch the page is written before the `finally` deletion. Both have happened when the handler returns.
- `ThreadingHTTPServer` / `run_server` are left out, together with concurrency between requests.
- Boundary non-collision is not proved. The source never checks that the boundary is absent from field values or file bytes, so a value containing the delimiter line can make the body ambiguous.
- `Json.Get`: decoded objects are taken to hold each key once. `json.loads` keeps the last of repeated keys, while `Get` would find the first; the service's answers do not repeat keys, and this is not enforced.
- `Web.Handler.ServeUpload`: what a failed copy managed to write (`CopyFailed.written`) is an input; it is not tied to a prefix of the image.
- `Client.UploadMedia`: a path present in the file system is taken to be a readable file. `read_bytes()` raising on a directory or an unreadable file is not modelled.
- `Text.Encode`: a Dafny `string` holds only Unicode scalar values, so `.encode()` never fails here. A Python `str` can carry lone surrogates (a title or file name from non-UTF-8 command-line bytes), for which `.encode()` raises `UnicodeEncodeError`; that exit is not modelled.
- `NamedTemporaryFile`'s choice of name is left out. `DoPost` takes the fresh temporary path as a parameter, and the only requirement is that no file exists there yet.

## Findings

| source | as written | input that shows it | evidently intended | confidence | as-written member | corrected member |
|---|---|---|---|---|---|---|
| src/floriday_magic_wand/web.py:146-160 | the temporary file is created and the image copied into it before the `try`, so the `finally` that deletes it does not cover the copy | an upload to `/upload` whose copy raises `OSError` (disk full) after writing one byte: `/tmp/rose.upload` stays on disk, the exception escapes `do_POST`, and no answer is written | the temporary file never survives a request, and a failed copy is answered like any other failed upload | medium, not executed | Web.Handler.ServeUpload, Web.CopyFailureLeaks | Web.Handler.ServeUploadGuarded |

=== FILE: cli.dfy ===
/**
 * The command line front end: `main` cuts out the input image into the
 * output directory, reports where it went and, unless `--dry-run` is given,
 * uploads the cut-out to the media library and prints the service's answer.
 */
module Cli {

  import opened Wrappers
  import opened Failures
  import opened Json
  import Text
  import Paths
  import Client
  import MagicWand
  import Trace
  import opened Workflow

  /** The parsed command line: the positional input image, `--output-dir`
      (by default "output"), `--title` and `--dry-run`. */
  datatype Args = Args(inputImage: string, outputDir: string, title: Option<string>, dryRun: bool)

  const SavedPrefix: string := "Vrijstaande afbeelding opgeslagen: "
  const DryRunNotice: string := "Dry run actief: upload overgeslagen."
  const UploadNotice: string := "Upload succesvol."

  /** `<dir>/<base>.<ext>` with a plain output directory `out` is cut out to
      `out/<base>-transparent.png`: the input's directory and extension are
      dropped. */
  lemma OutputPathOfInput(dir: string, base: string, ext: string, out: string,
                          title: Option<string>, dryRun: bool)
    requires dir == [] || dir[|dir| - 1] == '/'
    requires base != [] && '/' !in base
    requires ext != [] && '/' !in ext && '.' !in ext
    requires out != [] && out != "." && Text.RStrip(out, '/') == out
    ensures var args := Args(dir + base + "." + ext, out, title, dryRun);
            CutoutPath(args.outputDir, args.inputImage) == out + "/" + base + CutoutSuffix
  {
    Paths.StemOfSuffixedName(dir, base, ext);
    Paths.JoinPathPlainDir(out, base + CutoutSuffix);
    Text.ConcatAssoc(out + "/", base, CutoutSuffix);
  }

  /** What `main` leaves behind: the file system, the collaborators called,
      the lines printed and the exception that escapes, if any. */
  datatype MainRun = MainRun(files: map<string, Text.Bytes>, calls: seq<Trace.Call>,
                             printed: seq<string>, raised: Option<Error>)

  /** `main` after argument parsing. `remover` stands for the background
      removal library, `ambient` for the configuration `FloridayClient()`
      reads from the environment, and `mimeGuess`, `hex` and `answer` for
      the MIME guess, the boundary's UUID digits and the service's answer
      to the upload. */
  method RunMain(args: Args, ambient: Client.Config, files: map<string, Text.Bytes>, remover: MagicWand.Remover,
                 mimeGuess: Option<string>, hex: string, answer: Client.HttpOutcome)
    returns (r: MainRun)
    ensures MainAgrees(args, CutoutPath(args.outputDir, args.inputImage), ambient, files, remover, answer, r)
  {
    var output := CutoutPath(args.outputDir, args.inputImage);
    r := RunMainInto(args, output, ambient, files, remover, mimeGuess, hex, answer);
  }

  /** How a run of `main` that cuts `args.inputImage` out into `output`
      relates to the pipeline: the removal comes first; a failed removal
      ends the run with its exception and nothing printed; a dry run stops
      after reporting the cut-out; otherwise the calls and the outcome are
      the pipeline's, and the answer is printed only after a successful
      upload. */
  predicate MainAgrees(args: Args, output: string, ambient: Client.Config, files: map<string, Text.Bytes>,
                       remover: MagicWand.Remover, answer: Client.HttpOutcome, r: MainRun)
  {
    var run := Pipeline(ambient, files, args.inputImage, output, args.title, remover, answer);
    var removal := MagicWand.RemoveBackground(files, args.inputImage, output, remover);
    && |r.calls| >= 1 && r.calls[0] == Trace.RemoveBackground(args.inputImage, output)
    && r.files == removal.files
    && (removal.result.Failure? ==>
          r.calls == [r.calls[0]] && r.printed == [] && r.raised == Some(removal.result.error))
    && (removal.result.Success? && args.dryRun ==>
          r.calls == [r.calls[0]] && r.raised == None &&
          r.printed == [SavedPrefix + output, DryRunNotice])
    && (removal.result.Success? && !args.dryRun ==>
          r.calls == run.calls &&
          r.raised == (if run.outcome.Failure? then Some(run.outcome.error) else None) &&
          r.printed == [SavedPrefix + output] +
                       (if run.outcome.Success? then [UploadNotice, Repr(run.outcome.value)] else []))
  }

  /** `main` once the output path is known. */
  method RunMainInto(args: Args, output: string, ambient: Client.Config, files: map<string, Text.Bytes>,
                     remover: MagicWand.Remover, mimeGuess: Option<string>, hex: string,
                     answer: Client.HttpOutcome)
    returns (r: MainRun)
    ensures MainAgrees(args, output, ambient, files, remover, answer, r)
  {
    var calls := [Trace.RemoveBackground(args.inputImage, output)];
    var removal := MagicWand.RemoveBackground(files, args.inputImage, output, remover);
    if removal.result.Failure? {
      return MainRun(removal.files, calls, [], Some(removal.result.error));
    }
    var cleaned := removal.result.value;
    var printed := [SavedPrefix + cleaned];
    if args.dryRun {
      return MainRun(removal.files, calls, printed + [DryRunNotice], None);
    }
    var outcome, more := PublishRun(ambient, removal.files, cleaned, args.title, mimeGuess, hex, answer);
    ghost var rest := Publish(ambient, removal.files, cleaned, args.title, answer);
    assert Pipeline(ambient, files, args.inputImage, output, args.title, remover, answer)
        == PipelineRun(removal.files, calls + rest.calls, rest.outcome);
    match outcome
    case Failure(e) =>
      r := MainRun(removal.files, calls + more, printed, Some(e));
    case Success(response) =>
      r := MainRun(removal.files, calls + more, printed + [UploadNotice, Repr(response)], None);
  }

  /** The call order `main` keeps: background removal first and never again;
      no client and no upload in a dry run or after a failed removal;
      otherwise exactly one client construction, followed by one upload of
      the cut-out with the given title when construction succeeded. Nothing
      is printed unless the removal succeeded, and `main` returns normally
      exactly when every step it ran succeeded. */
  lemma MainOrder(args: Args, output: string, ambient: Client.Config, files: map<string, Text.Bytes>,
                  remover: MagicWand.Remover, answer: Client.HttpOutcome, r: MainRun)
    requires MainAgrees(args, output, ambient, files, remover, answer, r)
    ensures var removed := MagicWand.RemoveBackground(files, args.inputImage, output, remover).result.Success?;
            var built := Client.NewClient(None, ambient).Success?;
            && |r.calls| >= 1 && r.calls[0] == Trace.RemoveBackground(args.inputImage, output)
            && (forall i :: 1 <= i < |r.calls| ==> !r.calls[i].RemoveBackground?)
            && (|r.calls| >= 2 <==> removed && !args.dryRun)
            && (|r.calls| >= 2 ==> r.calls[1] == Trace.ConstructClient)
            && (|r.calls| >= 3 <==> removed && !args.dryRun && built)
            && (|r.calls| >= 3 ==> |r.calls| == 3 && r.calls[2] == Trace.UploadMedia(output, args.title))
            && (r.printed != [] <==> removed)
            && (r.raised.None? <==>
                  removed && (args.dryRun ||
                              Pipeline(ambient, files, args.inputImage, output, args.title, remover, answer)
                                .outcome.Success?))
  {
    var removal := MagicWand.RemoveBackground(files, args.inputImage, output, remover);
    if removal.result.Success? && !args.dryRun {
      var run := Pipeline(ambient, files, args.inputImage, output, args.title, remover, answer);
      var rest := Publish(ambient, removal.files, output, args.title, answer);
      assert r.calls == [r.calls[0]] + rest.calls by {
        assert r.calls == run.calls && run.calls[1..] == rest.calls;
      }
    }
  }
}

=== FILE: client.dfy ===
/**
 * The Floriday media API client: configuration check, URL building, the
 * hand-built multipart/form-data body (RFC 7578, with the delimiter syntax of
 * section 5.1.1 of RFC 2046), and the shaping of decoded JSON answers.
 *
 * What the network and the file system do is an input here: an upload or a
 * listing is given the answer the remote service gives (`HttpOutcome`), the
 * file system is a map from path to bytes, and the two random or guessed
 * pieces of the body (the hex of the boundary's UUID and the MIME type) are
 * parameters.
 */
module Client {

  import opened Wrappers
  import opened Failures
  import opened Json
  import Text
  import Paths

  type Bytes = Text.Bytes

  // ------------------------------------------------------------ configuration

  /** FloridayConfig: fixed once built. */
  datatype Config = Config(baseUrl: string, token: string, mediaEndpoint: string, timeoutSeconds: int)

  const MissingTokenMessage: string :=
    "FLORIDAY_TOKEN ontbreekt. Zet een geldige API token in je omgeving."

  datatype FloridayClient = FloridayClient(config: Config)

  /** `FloridayClient(given)`: `ambient` is the FloridayConfig() that an absent
      argument falls back to. Construction fails exactly when the token is empty,
      and otherwise keeps the configuration as it is. */
  function NewClient(given: Option<Config>, ambient: Config): (r: Result<FloridayClient, Error>)
    ensures r.Failure? <==> given.GetOr(ambient).token == ""
    ensures r.Success? ==> r.value.config == given.GetOr(ambient)
    ensures r.Failure? ==> r.error == Error(ValueError, MissingTokenMessage)
  {
    var config := given.GetOr(ambient);
    if config.token == "" then Failure(Error(ValueError, MissingTokenMessage))
    else Success(FloridayClient(config))
  }

  /** `_url()`: the base URL without its trailing slashes, then the
      endpoint. What is kept of the base URL is a prefix of it that leaves
      only slashes behind and does not end in a slash itself, so an endpoint
      that starts with '/' never produces a double slash at the join. */
  function Url(c: FloridayClient): (u: string)
    ensures var base, ep := c.config.baseUrl, c.config.mediaEndpoint;
            var n := |u| - |ep|;
            0 <= n <= |base| && u[n..] == ep && u[..n] == base[..n] &&
            (forall i :: n <= i < |base| ==> base[i] == '/') &&
            (n > 0 ==> u[n - 1] != '/')
  {
    var b := Text.RStrip(c.config.baseUrl, '/');
    assert (b + c.config.mediaEndpoint)[..|b|] == b;
    b + c.config.mediaEndpoint
  }

  function WithBaseUrl(c: FloridayClient, base: string): FloridayClient {
    FloridayClient(c.config.(baseUrl := base))
  }

  /** Appending any number of slashes to the base URL does not change the URL. */
  lemma UrlIgnoresTrailingSlashes(c: FloridayClient, n: nat)
    ensures Url(WithBaseUrl(c, c.config.baseUrl + seq(n, _ => '/'))) == Url(c)
  {
    Text.RStripIgnoresTrailing(c.config.baseUrl, '/', n);
  }

  /** The base URL with or without its trailing slash gives the same URL. */
  lemma UrlExample()
    ensures Url(FloridayClient(Config("https://api.floriday.io/", "abc", "/suppliers/v1/media", 30)))
            == "https://api.floriday.io/suppliers/v1/media"
  {
    var bare := "https://api.floriday.io";
    assert "https://api.floriday.io/" == bare + seq(1, _ => '/');
    var c := FloridayClient(Config(bare, "abc", "/suppliers/v1/media", 30));
    UrlIgnoresTrailingSlashes(c, 1);
    assert Text.RStrip(bare, '/') == bare;
  }

  // ------------------------------------------------------------ form fields

  /** A Python dict of form fields: keys with their text, in insertion order. */
  type Fields = seq<(string, string)>

  predicate HasKey(d: Fields, k: string) {
    exists i :: 0 <= i < |d| && d[i].0 == k
  }

  /** Each key occurs once, as in every Python dict. */
  predicate DistinctKeys(d: Fields) {
    forall i, j :: 0 <= i < j < |d| ==> d[i].0 != d[j].0
  }

  /** `d.get(k)` on the text fields of the form. `Json.Get` is the same
      lookup on decoded JSON members; the two are kept apart because the
      form's fields are plain text pairs that the multipart proofs take
      apart entry by entry. */
  function Lookup(d: Fields, k: string): Option<string> {
    if d == [] then None
    else if d[0].0 == k then Some(d[0].1)
    else Lookup(d[1..], k)
  }

  /** The entries of d whose key is not k, in order. */
  function Without(d: Fields, k: string): Fields {
    if d == [] then []
    else if d[0].0 == k then Without(d[1..], k)
    else [d[0]] + Without(d[1..], k)
  }

  /** `d[k] = v`: an existing key keeps its place, a new key goes last. */
  function DictSet(d: Fields, k: string, v: string): Fields {
    if d == [] then [(k, v)]
    else if d[0].0 == k then [(k, v)] + d[1..]
    else [d[0]] + DictSet(d[1..], k, v)
  }

  /** `d.update(m)`: the entries of m set one after another. */
  function DictUpdate(d: Fields, m: Fields): Fields
    decreases |m|
  {
    if m == [] then d else DictUpdate(DictSet(d, m[0].0, m[0].1), m[1..])
  }

  /** `if title:` — a title that is present and not empty. */
  predicate Titled(title: Option<string>) {
    title.Some? && title.value != ""
  }

  /** The form fields `_build_multipart_body` sends before the file: a
      title, when there is one, is the first field, and every metadata key
      is sent. */
  function FormFields(title: Option<string>, metadata: Fields): (r: Fields)
    ensures Titled(title) ==> r != [] && r[0].0 == "title"
    ensures forall i :: 0 <= i < |metadata| ==> HasKey(r, metadata[i].0)
  {
    var fields := if Titled(title) then [("title", title.value)] else [];
    DictUpdateKeepsHead(fields, metadata);
    DictUpdateKeys(fields, metadata);
    if metadata != [] then DictUpdate(fields, metadata) else fields
  }

  /** Setting a key never moves the first entry's key. */
  lemma DictSetKeepsHead(d: Fields, k: string, v: string)
    requires d != []
    ensures DictSet(d, k, v) != [] && DictSet(d, k, v)[0].0 == d[0].0
  {
  }

  lemma {:induction false} DictUpdateKeepsHead(d: Fields, m: Fields)
    ensures d != [] ==> DictUpdate(d, m) != [] && DictUpdate(d, m)[0].0 == d[0].0
    decreases |m|
  {
    if d != [] && m != [] {
      DictSetKeepsHead(d, m[0].0, m[0].1);
      DictUpdateKeepsHead(DictSet(d, m[0].0, m[0].1), m[1..]);
    }
  }

  /** `d[k] = v` leaves k present and keeps every key d had. */
  lemma {:induction false} DictSetKeys(d: Fields, k: string, v: string)
    ensures HasKey(DictSet(d, k, v), k)
    ensures forall x :: HasKey(d, x) ==> HasKey(DictSet(d, k, v), x)
  {
    var r := DictSet(d, k, v);
    if d == [] {
      assert r[0].0 == k;
    } else if d[0].0 == k {
      assert r[0].0 == k;
      forall x | HasKey(d, x) ensures HasKey(r, x) {
        var i :| 0 <= i < |d| && d[i].0 == x;
        assert r[i].0 == x;
      }
    } else {
      DictSetKeys(d[1..], k, v);
      var t := DictSet(d[1..], k, v);
      assert r == [d[0]] + t;
      var j :| 0 <= j < |t| && t[j].0 == k;
      assert r[j + 1].0 == k;
      forall x | HasKey(d, x) ensures HasKey(r, x) {
        var i :| 0 <= i < |d| && d[i].0 == x;
        if i == 0 {
          assert r[0].0 == x;
        } else {
          assert d[1..][i - 1].0 == x;
          assert HasKey(d[1..], x);
          var j' :| 0 <= j' < |t| && t[j'].0 == x;
          assert r[j' + 1].0 == x;
        }
      }
    }
  }

  /** `d.update(m)` keeps every key d had and holds every key of m. */
  lemma {:induction false} DictUpdateKeys(d: Fields, m: Fields)
    ensures forall x :: HasKey(d, x) ==> HasKey(DictUpdate(d, m), x)
    ensures forall i :: 0 <= i < |m| ==> HasKey(DictUpdate(d, m), m[i].0)
    decreases |m|
  {
    if m != [] {
      var d' := DictSet(d, m[0].0, m[0].1);
      DictSetKeys(d, m[0].0, m[0].1);
      DictUpdateKeys(d', m[1..]);
      forall i | 0 <= i < |m| ensures HasKey(DictUpdate(d, m), m[i].0) {
        if i > 0 { assert m[1..][i - 1] == m[i]; }
      }
    }
  }

  lemma {:induction false} DictSetAbsent(d: Fields, k: string, v: string)
    requires !HasKey(d, k)
    ensures DictSet(d, k, v) == d + [(k, v)]
  {
    if d != [] {
      DictSetAbsent(d[1..], k, v);
      assert d == [d[0]] + d[1..];
    }
  }

  lemma {:induction false} DictUpdateConcat(d: Fields, a: Fields, b: Fields)
    ensures DictUpdate(d, a + b) == DictUpdate(DictUpdate(d, a), b)
    decreases |a|
  {
    if a == [] {
      assert a + b == b;
    } else {
      assert (a + b)[0] == a[0] && (a + b)[1..] == a[1..] + b;
      DictUpdateConcat(DictSet(d, a[0].0, a[0].1), a[1..], b);
    }
  }

  /** Updating with entries whose keys are new and distinct appends them. */
  lemma {:induction false} DictUpdateFresh(d: Fields, m: Fields)
    requires DistinctKeys(m)
    requires forall i :: 0 <= i < |m| ==> !HasKey(d, m[i].0)
    ensures DictUpdate(d, m) == d + m
    decreases |m|
  {
    if m != [] {
      DictSetAbsent(d, m[0].0, m[0].1);
      var d' := d + [m[0]];
      forall i | 0 <= i < |m[1..]| ensures !HasKey(d', m[1..][i].0) {
        assert m[1..][i] == m[i + 1];
      }
      DictUpdateFresh(d', m[1..]);
      assert d' + m[1..] == d + m;
    }
  }

  lemma {:induction false} WithoutAbsent(m: Fields, k: string)
    requires !HasKey(m, k)
    ensures Without(m, k) == m
  {
    if m != [] {
      WithoutAbsent(m[1..], k);
      assert m == [m[0]] + m[1..];
    }
  }

  lemma {:induction false} WithoutConcat(a: Fields, b: Fields, k: string)
    ensures Without(a + b, k) == Without(a, k) + Without(b, k)
  {
    if a == [] {
      assert a + b == b;
    } else {
      assert (a + b)[0] == a[0] && (a + b)[1..] == a[1..] + b;
      WithoutConcat(a[1..], b, k);
    }
  }

  lemma {:induction false} LookupAt(m: Fields, p: int)
    requires DistinctKeys(m) && 0 <= p < |m|
    ensures Lookup(m, m[p].0) == Some(m[p].1)
  {
    if p > 0 {
      assert m[0].0 != m[p].0;
      assert m[1..][p - 1] == m[p];
      LookupAt(m[1..], p - 1);
    }
  }

  lemma LookupAbsent(m: Fields, k: string)
    requires !HasKey(m, k)
    ensures Lookup(m, k) == None
  {
    if m != [] {
      LookupAbsent(m[1..], k);
    }
  }

  /** The form fields in full: a non-empty title comes first, under the key
      "title", with the metadata's own "title" (if it has one) overriding its
      value; then every other metadata entry in the metadata's order. Without a
      title, the fields are exactly the metadata. */
  lemma FormFieldsShape(title: Option<string>, metadata: Fields)
    requires DistinctKeys(metadata)
    ensures FormFields(title, metadata) ==
            if Titled(title)
            then [("title", Lookup(metadata, "title").GetOr(title.value))] + Without(metadata, "title")
            else metadata
  {
    var m := metadata;
    if !Titled(title) {
      if m != [] { DictUpdateFresh([], m); }
    } else if !HasKey(m, "title") {
      LookupAbsent(m, "title");
      WithoutAbsent(m, "title");
      if m != [] {
        DictUpdateFresh([("title", title.value)], m);
      }
    } else {
      var p :| 0 <= p < |m| && m[p].0 == "title";
      TitleOverridden(title.value, m, p);
    }
  }

  /** Metadata carrying its own "title" at position p replaces the title's
      value but not its first place. */
  lemma TitleOverridden(t: string, m: Fields, p: int)
    requires DistinctKeys(m) && 0 <= p < |m| && m[p].0 == "title"
    ensures DictUpdate([("title", t)], m) == [("title", m[p].1)] + Without(m, "title")
    ensures Lookup(m, "title") == Some(m[p].1)
  {
    var before, after := m[..p], m[p + 1..];
    assert DistinctKeys(before) && !HasKey(before, "title") by {
      forall i | 0 <= i < |before| ensures before[i] == m[i] { }
    }
    assert DistinctKeys(after) && !HasKey(after, "title") by {
      forall i | 0 <= i < |after| ensures after[i] == m[p + 1 + i] { }
    }
    assert forall i, j :: 0 <= i < |before| && 0 <= j < |after| ==> before[i].0 != after[j].0 by {
      forall i, j | 0 <= i < |before| && 0 <= j < |after| ensures before[i].0 != after[j].0 {
        assert before[i] == m[i] && after[j] == m[p + 1 + j];
      }
    }
    OverrideInPlace("title", t, before, m[p].1, after);
    Text.SplitAt(m, p);
    assert m[p] == ("title", m[p].1);
    LookupAt(m, p);
    WithoutSplit(m, p);
  }

  /** The core of the override: the entries before the key are new and go
      after it, the key takes its new value in place, and the entries after
      it are new and go last. */
  lemma OverrideInPlace(k: string, t: string, before: Fields, v: string, after: Fields)
    requires DistinctKeys(before) && !HasKey(before, k)
    requires DistinctKeys(after) && !HasKey(after, k)
    requires forall i, j :: 0 <= i < |before| && 0 <= j < |after| ==> before[i].0 != after[j].0
    ensures DictUpdate([(k, t)], before + [(k, v)] + after) == [(k, v)] + (before + after)
  {
    var kv := [(k, v)] + before;
    assert DictUpdate([(k, t)], before + [(k, v)]) == kv by {
      UpdateUpToKey(k, t, before, v);
    }
    assert DictUpdate(kv, after) == kv + after by {
      FreshAfterKey(k, v, before, after);
    }
    DictUpdateConcat([(k, t)], before + [(k, v)], after);
    Text.ConcatAssoc([(k, v)], before, after);
  }

  lemma FreshAfterKey(k: string, v: string, before: Fields, after: Fields)
    requires DistinctKeys(after) && !HasKey(after, k)
    requires forall i, j :: 0 <= i < |before| && 0 <= j < |after| ==> before[i].0 != after[j].0
    ensures DictUpdate([(k, v)] + before, after) == [(k, v)] + before + after
  {
    var kv := [(k, v)] + before;
    forall i | 0 <= i < |after| ensures !HasKey(kv, after[i].0) {
      forall j | 0 <= j < |kv| ensures kv[j].0 != after[i].0 {
        if j > 0 {
          assert kv[j] == before[j - 1];
        }
      }
    }
    DictUpdateFresh(kv, after);
  }

  lemma UpdateUpToKey(k: string, t: string, before: Fields, v: string)
    requires DistinctKeys(before) && !HasKey(before, k)
    ensures DictUpdate([(k, t)], before + [(k, v)]) == [(k, v)] + before
  {
    DictUpdateConcat([(k, t)], before, [(k, v)]);
    DictUpdateFresh([(k, t)], before);
    assert DictSet([(k, t)] + before, k, v) == [(k, v)] + before;
  }

  lemma WithoutSplit(m: Fields, p: int)
    requires DistinctKeys(m) && 0 <= p < |m|
    ensures Without(m, m[p].0) == m[..p] + m[p + 1..]
  {
    var before, after, k := m[..p], m[p + 1..], m[p].0;
    assert !HasKey(before, k) by {
      forall i | 0 <= i < |before| ensures before[i].0 != k {
        assert before[i] == m[i];
      }
    }
    assert !HasKey(after, k) by {
      forall i | 0 <= i < |after| ensures after[i].0 != k {
        assert after[i] == m[p + 1 + i];
      }
    }
    Text.SplitAt(m, p);
    WithoutOne(before, m[p], after);
  }

  lemma WithoutOne(before: Fields, x: (string, string), after: Fields)
    requires !HasKey(before, x.0) && !HasKey(after, x.0)
    ensures Without(before + [x] + after, x.0) == before + after
  {
    var k := x.0;
    WithoutConcat(before + [x], after, k);
    WithoutConcat(before, [x], k);
    WithoutAbsent(before, k);
    WithoutAbsent(after, k);
    assert Without([x], k) == [];
  }

  // ------------------------------------------------------------ multipart body

  const BoundaryPrefix: string := "----FloridayMagicWand"
  const DefaultMimeType: string := "application/octet-stream"
  const MultipartPrefix: string := "multipart/form-data; boundary="

  /** The boundary for the hex digits of a fresh UUID. */
  function Boundary(hex: string): (b: string)
    ensures |b| >= |BoundaryPrefix| && b[..|BoundaryPrefix|] == BoundaryPrefix
  {
    BoundaryPrefix + hex
  }

  /** `mimetypes.guess_type(name)[0] or "application/octet-stream"`. */
  function MimeOrDefault(guess: Option<string>): (m: string)
    ensures m != ""
    ensures guess.Some? && guess.value != "" ==> m == guess.value
    ensures guess.None? || guess.value == "" ==> m == DefaultMimeType
  {
    if guess.Some? && guess.value != "" then guess.value else DefaultMimeType
  }

  /** The Content-Type header value announcing the boundary. */
  function MultipartContentType(boundary: string): (ct: string)
    ensures |ct| == |MultipartPrefix| + |boundary|
    ensures ct[..|MultipartPrefix|] == MultipartPrefix && ct[|MultipartPrefix|..] == boundary
  {
    MultipartPrefix + boundary
  }

  const DispositionPrefix: string := "Content-Disposition: form-data; "

  /** `name="<key>"` */
  function NameAttribute(key: string): string { "name=\"" + key + "\"" }

  /** `filename="<name>"` */
  function FileNameAttribute(fileName: string): string { "filename=\"" + fileName + "\"" }

  /** The lines of the body, as the bytes `.encode()` gives them. */
  function Delimiter(boundary: string): Bytes { Text.Encode("--" + boundary) }
  function CloseDelimiter(boundary: string): Bytes { Text.Encode("--" + boundary + "--") }
  function FieldDisposition(key: string): Bytes {
    Text.Encode(DispositionPrefix + NameAttribute(key))
  }
  function FileDisposition(fileName: string): Bytes {
    Text.Encode(DispositionPrefix + NameAttribute("file") + "; " + FileNameAttribute(fileName))
  }
  function ContentTypeLine(mime: string): Bytes { Text.Encode("Content-Type: " + mime) }

  /** One text part: delimiter, disposition, empty line, value, each ended by CRLF. */
  function FieldPart(boundary: string, key: string, value: string): Bytes {
    Delimiter(boundary) + Text.CRLF + FieldDisposition(key) + Text.CRLF + Text.CRLF +
    Text.Encode(value) + Text.CRLF
  }

  /** The text parts of all fields, in field order. */
  function FieldParts(boundary: string, fields: Fields): Bytes {
    if fields == [] then []
    else
      var last := fields[|fields| - 1];
      FieldParts(boundary, fields[..|fields| - 1]) + FieldPart(boundary, last.0, last.1)
  }

  /** The file part followed by the close delimiter and a final CRLF. */
  function FilePart(boundary: string, fileName: string, mime: string, content: Bytes): Bytes {
    Delimiter(boundary) + Text.CRLF + FileDisposition(fileName) + Text.CRLF +
    ContentTypeLine(mime) + Text.CRLF + Text.CRLF + content + Text.CRLF +
    CloseDelimiter(boundary) + Text.CRLF
  }

  /** The whole body, part by part: every text part, then the file part. */
  function MultipartBody(boundary: string, fields: Fields, fileName: string, mime: string, content: Bytes): Bytes {
    FieldParts(boundary, fields) + FilePart(boundary, fileName, mime, content)
  }

  /** `sep.join(lines)` for byte strings. It peels the last line, which is
      the shape the body proofs (`JoinSnoc`, `TerminatedConcat`) need;
      `Json.JoinStrings` joins text from the front for `repr`. */
  function Join(sep: Bytes, lines: seq<Bytes>): Bytes {
    if lines == [] then []
    else if |lines| == 1 then lines[0]
    else Join(sep, lines[..|lines| - 1]) + sep + lines[|lines| - 1]
  }

  /** Every line followed by sep. */
  function Terminated(sep: Bytes, lines: seq<Bytes>): Bytes {
    if lines == [] then []
    else Terminated(sep, lines[..|lines| - 1]) + lines[|lines| - 1] + sep
  }

  lemma {:induction false} JoinSnoc(sep: Bytes, lines: seq<Bytes>, x: Bytes)
    ensures Join(sep, lines + [x]) == Terminated(sep, lines) + x
  {
    var all := lines + [x];
    assert all[..|all| - 1] == lines;
    if lines != [] {
      var init := lines[..|lines| - 1];
      JoinSnoc(sep, init, lines[|lines| - 1]);
      assert init + [lines[|lines| - 1]] == lines;
    }
  }

  lemma {:induction false} TerminatedConcat(sep: Bytes, a: seq<Bytes>, b: seq<Bytes>)
    ensures Terminated(sep, a + b) == Terminated(sep, a) + Terminated(sep, b)
    decreases |b|
  {
    if b == [] {
      assert a + b == a;
    } else {
      var init, last := b[..|b| - 1], b[|b| - 1];
      assert (a + b)[..|a + b| - 1] == a + init;
      assert Terminated(sep, a + b) == Terminated(sep, a + init) + last + sep;
      TerminatedConcat(sep, a, init);
      Text.ConcatAssoc(Terminated(sep, a), Terminated(sep, init), last);
      Text.ConcatAssoc(Terminated(sep, a), Terminated(sep, init) + last, sep);
    }
  }

  lemma TerminatedSnoc(sep: Bytes, lines: seq<Bytes>, x: Bytes)
    ensures Terminated(sep, lines + [x]) == Terminated(sep, lines) + x + sep
  {
    assert (lines + [x])[..|lines|] == lines;
  }

  lemma TerminatedFour(sep: Bytes, a: Bytes, b: Bytes, c: Bytes, d: Bytes)
    ensures Terminated(sep, [a, b, c, d]) == a + sep + b + sep + c + sep + d + sep
  {
    TerminatedSnoc(sep, [], a);
    assert [] + [a] == [a];
    TerminatedSnoc(sep, [a], b);
    assert [a] + [b] == [a, b];
    TerminatedSnoc(sep, [a, b], c);
    assert [a, b] + [c] == [a, b, c];
    TerminatedSnoc(sep, [a, b, c], d);
    assert [a, b, c] + [d] == [a, b, c, d];
  }

  lemma TerminatedSix(sep: Bytes, a: Bytes, b: Bytes, c: Bytes, d: Bytes, e: Bytes, f: Bytes)
    ensures Terminated(sep, [a, b, c, d, e, f])
            == a + sep + b + sep + c + sep + d + sep + e + sep + f + sep
  {
    TerminatedFour(sep, a, b, c, d);
    TerminatedSnoc(sep, [a, b, c, d], e);
    assert [a, b, c, d] + [e] == [a, b, c, d, e];
    TerminatedSnoc(sep, [a, b, c, d, e], f);
    assert [a, b, c, d, e] + [f] == [a, b, c, d, e, f];
  }

  lemma FieldLinesTerminated(boundary: string, key: string, value: string)
    ensures Terminated(Text.CRLF, [Delimiter(boundary), FieldDisposition(key), [], Text.Encode(value)])
            == FieldPart(boundary, key, value)
  {
    TerminatedFour(Text.CRLF, Delimiter(boundary), FieldDisposition(key), [], Text.Encode(value));
    DropEmpty(Delimiter(boundary) + Text.CRLF + FieldDisposition(key) + Text.CRLF, Text.CRLF);
  }

  lemma FileLinesTerminated(boundary: string, fileName: string, mime: string, content: Bytes)
    ensures Terminated(Text.CRLF, [Delimiter(boundary), FileDisposition(fileName), ContentTypeLine(mime),
                                   [], content, CloseDelimiter(boundary)])
            == FilePart(boundary, fileName, mime, content)
  {
    TerminatedSix(Text.CRLF, Delimiter(boundary), FileDisposition(fileName), ContentTypeLine(mime),
                  [], content, CloseDelimiter(boundary));
    DropEmpty(Delimiter(boundary) + Text.CRLF + FileDisposition(fileName) + Text.CRLF +
              ContentTypeLine(mime) + Text.CRLF, Text.CRLF);
  }

  lemma DropEmpty(x: Bytes, sep: Bytes)
    ensures x + [] + sep == x + sep
  {
  }

  /** One turn of the builder's field loop: the four lines of field `i`
      extend the terminated lines by exactly that field's part. */
  lemma FieldLinesStep(boundary: string, fields: Fields, i: int, lines: seq<Bytes>, key: string, value: string)
    requires 0 <= i < |fields| && fields[i] == (key, value)
    requires Terminated(Text.CRLF, lines) == FieldParts(boundary, fields[..i])
    ensures Terminated(Text.CRLF, lines + [Delimiter(boundary), FieldDisposition(key), [], Text.Encode(value)])
            == FieldParts(boundary, fields[..i + 1])
  {
    TerminatedConcat(Text.CRLF, lines, [Delimiter(boundary), FieldDisposition(key), [], Text.Encode(value)]);
    FieldLinesTerminated(boundary, key, value);
    assert fields[..i + 1][..i] == fields[..i];
  }

  /** The builder's last step: the file's lines and a final empty line,
      joined by CRLF, give the field parts followed by the file part. */
  lemma FileLinesStep(boundary: string, fields: Fields, lines: seq<Bytes>, fileName: string, mime: string,
                      content: Bytes)
    requires Terminated(Text.CRLF, lines) == FieldParts(boundary, fields)
    ensures Join(Text.CRLF, lines + [Delimiter(boundary), FileDisposition(fileName), ContentTypeLine(mime),
                                     [], content, CloseDelimiter(boundary)] + [[]])
            == MultipartBody(boundary, fields, fileName, mime, content)
  {
    var fileLines := [Delimiter(boundary), FileDisposition(fileName), ContentTypeLine(mime),
                      [], content, CloseDelimiter(boundary)];
    TerminatedConcat(Text.CRLF, lines, fileLines);
    FileLinesTerminated(boundary, fileName, mime, content);
    JoinSnoc(Text.CRLF, lines + fileLines, []);
  }

  /** The field loop of `_build_multipart_body`: four lines per field, whose
      CRLF-terminated concatenation is every field's part, in field order. */
  method FieldLines(boundary: string, fields: Fields) returns (lines: seq<Bytes>)
    ensures Terminated(Text.CRLF, lines) == FieldParts(boundary, fields)
  {
    lines := [];
    var i := 0;
    while i < |fields|
      invariant 0 <= i <= |fields|
      invariant Terminated(Text.CRLF, lines) == FieldParts(boundary, fields[..i])
    {
      var (key, value) := fields[i];
      var part := [Delimiter(boundary), FieldDisposition(key), [], Text.Encode(value)];
      FieldLinesStep(boundary, fields, i, lines, key, value);
      lines := lines + part;
      i := i + 1;
    }
    assert fields[..i] == fields;
  }

  /** `_build_multipart_body`: gathers the form fields, emits four lines per
      field and seven for the file (the last one empty), and joins them with
      CRLF. The result is the part-by-part body above, and the Content-Type
      names the boundary used in it. */
  method BuildMultipartBody(fileName: string, fileBytes: Bytes, title: Option<string>,
                            metadata: Fields, mimeGuess: Option<string>, hex: string)
    returns (body: Bytes, contentType: string)
    ensures body == MultipartBody(Boundary(hex), FormFields(title, metadata), fileName,
                                  MimeOrDefault(mimeGuess), fileBytes)
    ensures contentType == MultipartContentType(Boundary(hex))
  {
    var boundary := Boundary(hex);
    var formFields: Fields := [];
    if Titled(title) {
      formFields := DictSet(formFields, "title", title.value);
      assert formFields == [("title", title.value)];
    }
    if metadata != [] {
      formFields := DictUpdate(formFields, metadata);
    }
    assert formFields == FormFields(title, metadata);
    var lines := FieldLines(boundary, formFields);
    var mime := MimeOrDefault(mimeGuess);
    var fileLines := [Delimiter(boundary), FileDisposition(fileName), ContentTypeLine(mime),
                      [], fileBytes, CloseDelimiter(boundary)];
    FileLinesStep(boundary, formFields, lines, fileName, mime, fileBytes);
    body := Join(Text.CRLF, lines + fileLines + [[]]);
    contentType := MultipartContentType(boundary);
  }

  // ------------------------------------------------------------ what the body contains

  lemma {:induction false} FieldPartsConcat(boundary: string, xs: Fields, ys: Fields)
    ensures FieldParts(boundary, xs + ys) == FieldParts(boundary, xs) + FieldParts(boundary, ys)
    decreases |ys|
  {
    if ys == [] {
      assert xs + ys == xs;
    } else {
      var init, last := ys[..|ys| - 1], ys[|ys| - 1];
      var part := FieldPart(boundary, last.0, last.1);
      assert (xs + ys)[..|xs + ys| - 1] == xs + init;
      assert FieldParts(boundary, xs + ys) == FieldParts(boundary, xs + init) + part;
      FieldPartsConcat(boundary, xs, init);
      Text.ConcatAssoc(FieldParts(boundary, xs), FieldParts(boundary, init), part);
    }
  }

  /** The first line of every part: the delimiter and its CRLF. */
  function OpeningLine(boundary: string): Bytes { Delimiter(boundary) + Text.CRLF }

  /** The last line of every body: the close delimiter and its CRLF. */
  function ClosingLine(boundary: string): Bytes { CloseDelimiter(boundary) + Text.CRLF }

  lemma FieldPartOpens(boundary: string, key: string, value: string)
    ensures Text.StartsWith(FieldPart(boundary, key, value), OpeningLine(boundary))
  {
    var crlf, o := Text.CRLF, OpeningLine(boundary);
    assert Text.StartsWith(o, o);
    Text.StartsWithRight(o, o, FieldDisposition(key));
    Text.StartsWithRight(o + FieldDisposition(key), o, crlf);
    Text.StartsWithRight(o + FieldDisposition(key) + crlf, o, crlf);
    Text.StartsWithRight(o + FieldDisposition(key) + crlf + crlf, o, Text.Encode(value));
    Text.StartsWithRight(o + FieldDisposition(key) + crlf + crlf + Text.Encode(value), o, crlf);
  }

  lemma FilePartOpens(boundary: string, fileName: string, mime: string, content: Bytes)
    ensures Text.StartsWith(FilePart(boundary, fileName, mime, content), OpeningLine(boundary))
  {
    var crlf, o := Text.CRLF, OpeningLine(boundary);
    var fd, ct, cd := FileDisposition(fileName), ContentTypeLine(mime), CloseDelimiter(boundary);
    assert Text.StartsWith(o, o);
    Text.StartsWithRight(o, o, fd);
    Text.StartsWithRight(o + fd, o, crlf);
    Text.StartsWithRight(o + fd + crlf, o, ct);
    Text.StartsWithRight(o + fd + crlf + ct, o, crlf);
    Text.StartsWithRight(o + fd + crlf + ct + crlf, o, crlf);
    Text.StartsWithRight(o + fd + crlf + ct + crlf + crlf, o, content);
    Text.StartsWithRight(o + fd + crlf + ct + crlf + crlf + content, o, crlf);
    Text.StartsWithRight(o + fd + crlf + ct + crlf + crlf + content + crlf, o, cd);
    Text.StartsWithRight(o + fd + crlf + ct + crlf + crlf + content + crlf + cd, o, crlf);
  }

  lemma {:induction false} FieldPartsOpen(boundary: string, fields: Fields)
    requires fields != []
    ensures Text.StartsWith(FieldParts(boundary, fields), OpeningLine(boundary))
    decreases |fields|
  {
    var init, last := fields[..|fields| - 1], fields[|fields| - 1];
    var part := FieldPart(boundary, last.0, last.1);
    if init == [] {
      FieldPartOpens(boundary, last.0, last.1);
      assert FieldParts(boundary, fields) == [] + part == part;
    } else {
      FieldPartsOpen(boundary, init);
      Text.StartsWithRight(FieldParts(boundary, init), OpeningLine(boundary), part);
    }
  }

  /** Every body opens with the first delimiter line and ends with the close
      delimiter line followed by CRLF. */
  lemma BodyFraming(boundary: string, fields: Fields, fileName: string, mime: string, content: Bytes)
    ensures var body := MultipartBody(boundary, fields, fileName, mime, content);
            Text.StartsWith(body, OpeningLine(boundary)) && Text.EndsWith(body, ClosingLine(boundary))
  {
    var parts, file := FieldParts(boundary, fields), FilePart(boundary, fileName, mime, content);
    if fields == [] {
      FilePartOpens(boundary, fileName, mime, content);
      assert parts + file == file;
    } else {
      FieldPartsOpen(boundary, fields);
      Text.StartsWithRight(parts, OpeningLine(boundary), file);
    }
    var crlf := Text.CRLF;
    var front := OpeningLine(boundary) + FileDisposition(fileName) + crlf + ContentTypeLine(mime) + crlf + crlf +
                 content + crlf;
    Text.EndsWithPair(front, CloseDelimiter(boundary), crlf);
    Text.EndsWithLeft(file, parts, ClosingLine(boundary));
  }

  /** Each form field's part lies whole, and in one piece, inside the body. */
  lemma FieldPartInBody(boundary: string, fields: Fields, fileName: string, mime: string, content: Bytes, j: int)
    requires 0 <= j < |fields|
    ensures Text.Infix(FieldPart(boundary, fields[j].0, fields[j].1),
                       MultipartBody(boundary, fields, fileName, mime, content))
  {
    var pre, fj, post := fields[..j], fields[j], fields[j + 1..];
    assert fields == pre + [fj] + post;
    FieldPartsConcat(boundary, pre + [fj], post);
    FieldPartsConcat(boundary, pre, [fj]);
    var part := FieldPart(boundary, fj.0, fj.1);
    assert [fj][..0] == [];
    assert FieldParts(boundary, [fj]) == [] + part;
    Text.InfixSelf(part);
    Text.InfixLeft(part, [], part);
    Text.InfixLeft(part, FieldParts(boundary, pre), FieldParts(boundary, [fj]));
    Text.InfixRight(part, FieldParts(boundary, pre + [fj]), FieldParts(boundary, post));
    Text.InfixRight(part, FieldParts(boundary, fields), FilePart(boundary, fileName, mime, content));
  }

  /** A text part carries `name="<key>"` and the value's bytes. */
  lemma NameAndValueInPart(boundary: string, key: string, value: string)
    ensures Text.Infix(Text.Encode(NameAttribute(key)), FieldPart(boundary, key, value))
    ensures Text.Infix(Text.Encode(value), FieldPart(boundary, key, value))
  {
    var crlf, o, ev := Text.CRLF, OpeningLine(boundary), Text.Encode(value);
    var fd, na := FieldDisposition(key), Text.Encode(NameAttribute(key));
    Text.EncodeConcat(DispositionPrefix, NameAttribute(key));
    Text.InfixSelf(na);
    Text.InfixLeft(na, Text.Encode(DispositionPrefix), na);
    Text.InfixLeft(na, o, fd);
    Text.InfixRight(na, o + fd, crlf);
    Text.InfixRight(na, o + fd + crlf, crlf);
    Text.InfixRight(na, o + fd + crlf + crlf, ev);
    Text.InfixRight(na, o + fd + crlf + crlf + ev, crlf);
    Text.InfixOfConcat(o + fd + crlf + crlf, ev, crlf);
  }

  /** Every field's `name="<key>"` and value appear in the body. */
  lemma FieldInBody(boundary: string, fields: Fields, fileName: string, mime: string, content: Bytes, j: int)
    requires 0 <= j < |fields|
    ensures var body := MultipartBody(boundary, fields, fileName, mime, content);
            Text.Infix(Text.Encode(NameAttribute(fields[j].0)), body) &&
            Text.Infix(Text.Encode(fields[j].1), body)
  {
    var body := MultipartBody(boundary, fields, fileName, mime, content);
    var part := FieldPart(boundary, fields[j].0, fields[j].1);
    FieldPartInBody(boundary, fields, fileName, mime, content, j);
    NameAndValueInPart(boundary, fields[j].0, fields[j].1);
    Text.InfixTransitive(Text.Encode(NameAttribute(fields[j].0)), part, body);
    Text.InfixTransitive(Text.Encode(fields[j].1), part, body);
  }

  /** The body carries `filename="<name>"` and the file's bytes unchanged. */
  lemma FileInBody(boundary: string, fields: Fields, fileName: string, mime: string, content: Bytes)
    ensures var body := MultipartBody(boundary, fields, fileName, mime, content);
            Text.Infix(Text.Encode(FileNameAttribute(fileName)), body) && Text.Infix(content, body)
  {
    var crlf, o := Text.CRLF, OpeningLine(boundary);
    var fd, ct, cd := FileDisposition(fileName), ContentTypeLine(mime), CloseDelimiter(boundary);
    var parts := FieldParts(boundary, fields);
    var fa := Text.Encode(FileNameAttribute(fileName));
    Text.EncodeConcat(DispositionPrefix + NameAttribute("file") + "; ", FileNameAttribute(fileName));
    Text.InfixSelf(fa);
    Text.InfixLeft(fa, Text.Encode(DispositionPrefix + NameAttribute("file") + "; "), fa);
    Text.InfixLeft(fa, o, fd);
    Text.InfixRight(fa, o + fd, crlf);
    Text.InfixRight(fa, o + fd + crlf, ct);
    Text.InfixRight(fa, o + fd + crlf + ct, crlf);
    Text.InfixRight(fa, o + fd + crlf + ct + crlf, crlf);
    Text.InfixRight(fa, o + fd + crlf + ct + crlf + crlf, content);
    Text.InfixRight(fa, o + fd + crlf + ct + crlf + crlf + content, crlf);
    Text.InfixRight(fa, o + fd + crlf + ct + crlf + crlf + content + crlf, cd);
    Text.InfixRight(fa, o + fd + crlf + ct + crlf + crlf + content + crlf + cd, crlf);
    Text.InfixLeft(fa, parts, FilePart(boundary, fileName, mime, content));

    Text.InfixOfConcat(o + fd + crlf + ct + crlf + crlf, content, crlf);
    Text.InfixRight(content, o + fd + crlf + ct + crlf + crlf + content + crlf, cd);
    Text.InfixRight(content, o + fd + crlf + ct + crlf + crlf + content + crlf + cd, crlf);
    Text.InfixLeft(content, parts, FilePart(boundary, fileName, mime, content));
  }

  /** Built with a title (and metadata that does not override it), the body
      carries `name="title"`, the title, `filename="<name>"` and the file's
      bytes, and the Content-Type announces a `----FloridayMagicWand` boundary. */
  lemma TitleAndFileInBody(fileName: string, fileBytes: Bytes, title: Option<string>,
                           metadata: Fields, mimeGuess: Option<string>, hex: string)
    requires Titled(title) && DistinctKeys(metadata) && !HasKey(metadata, "title")
    ensures var body := MultipartBody(Boundary(hex), FormFields(title, metadata), fileName,
                                      MimeOrDefault(mimeGuess), fileBytes);
            Text.Infix(Text.Encode(NameAttribute("title")), body) &&
            Text.Infix(Text.Encode(title.value), body) &&
            Text.Infix(Text.Encode(FileNameAttribute(fileName)), body) &&
            Text.Infix(fileBytes, body)
    ensures var ct := MultipartContentType(Boundary(hex));
            ct[..|MultipartPrefix|] == MultipartPrefix &&
            ct[|MultipartPrefix|..][..|BoundaryPrefix|] == BoundaryPrefix
  {
    var fields := FormFields(title, metadata);
    FormFieldsShape(title, metadata);
    LookupAbsent(metadata, "title");
    assert fields[0] == ("title", title.value);
    FieldInBody(Boundary(hex), fields, fileName, MimeOrDefault(mimeGuess), fileBytes, 0);
    FileInBody(Boundary(hex), fields, fileName, MimeOrDefault(mimeGuess), fileBytes);
  }

  // ------------------------------------------------------------ requests and answers

  /** What urlopen is handed: method, URL, headers, body and timeout. */
  datatype HttpRequest = HttpRequest(verb: string, url: string, headers: seq<(string, string)>,
                                     data: Option<Bytes>, timeout: int)

  /** What came back: a body (with what json.loads makes of it), an HTTP error
      status with its body text, or no answer at all. */
  datatype HttpOutcome =
    | Answered(raw: string, decoded: Result<Json, string>)
    | HttpError(code: nat, detail: string)
    | Unreachable(reason: string)

  /** The headers every request carries: the bearer token and the JSON
      Accept header, each once. */
  function AuthHeaders(c: FloridayClient): (h: Fields)
    ensures DistinctKeys(h)
    ensures Lookup(h, "Authorization") == Some("Bearer " + c.config.token)
    ensures Lookup(h, "Accept") == Some("application/json")
  {
    [("Authorization", "Bearer " + c.config.token), ("Accept", "application/json")]
  }

  /** The upload request: a POST of the body to the media URL, authorised,
      announcing the multipart Content-Type, with the configured timeout. */
  function UploadRequest(c: FloridayClient, body: Bytes, contentType: string): (r: HttpRequest)
    ensures r.verb == "POST" && r.url == Url(c) && r.data == Some(body) && r.timeout == c.config.timeoutSeconds
    ensures DistinctKeys(r.headers)
    ensures Lookup(r.headers, "Authorization") == Some("Bearer " + c.config.token)
    ensures Lookup(r.headers, "Accept") == Some("application/json")
    ensures Lookup(r.headers, "Content-Type") == Some(contentType)
  {
    var h := AuthHeaders(c) + [("Content-Type", contentType)];
    assert h[0].0 != "Content-Type" && h[1..][0].0 != "Content-Type";
    assert h[1..][1..] == [("Content-Type", contentType)];
    assert Lookup(h[1..], "Content-Type") == Some(contentType);
    HttpRequest("POST", Url(c), h, Some(body), c.config.timeoutSeconds)
  }

  /** The listing request: a GET of the media URL with no body, authorised,
      with the configured timeout. */
  function ListRequest(c: FloridayClient): (r: HttpRequest)
    ensures r.verb == "GET" && r.url == Url(c) && r.data == None && r.timeout == c.config.timeoutSeconds
    ensures r.headers == AuthHeaders(c)
  {
    HttpRequest("GET", Url(c), AuthHeaders(c), None, c.config.timeoutSeconds)
  }

  const RequestFailedPrefix: string := "Floriday request mislukt ("

  /** The RuntimeError text for an HTTP error: it carries the status code, in
      decimal digits that read back as that code, and the body text. */
  function RequestFailedMessage(code: nat, detail: string): (m: string)
    ensures var digits := Text.NatToString(code);
            m == RequestFailedPrefix + digits + "): " + detail && Text.DigitsValue(digits) == code
  {
    Text.NatToStringRoundTrip(code);
    RequestFailedPrefix + Text.NatToString(code) + "): " + detail
  }

  /** `_request_json`: an HTTP error becomes a RuntimeError, an empty body
      becomes `{}`, other bodies are what json.loads makes of them, and a
      failure without an answer passes through untranslated. */
  function RequestJson(answer: HttpOutcome): (r: Result<Json, Error>)
    ensures r.Failure? && r.error.kind == RuntimeError <==> answer.HttpError?
    ensures answer.HttpError? ==> r.error.message == RequestFailedMessage(answer.code, answer.detail)
    ensures answer.Answered? && answer.raw == "" ==> r == Success(EmptyObject)
    ensures answer.Unreachable? ==> r == Failure(Error(TransportError, answer.reason))
    ensures answer.Answered? && answer.raw != "" ==>
              r == match answer.decoded
                   case Success(v) => Success(v)
                   case Failure(why) => Failure(Error(DecodeError, why))
  {
    match answer
    case HttpError(code, detail) => Failure(Error(RuntimeError, RequestFailedMessage(code, detail)))
    case Unreachable(reason) => Failure(Error(TransportError, reason))
    case Answered(raw, decoded) =>
      if raw == "" then Success(EmptyObject)
      else
        match decoded
        case Success(v) => Success(v)
        case Failure(why) => Failure(Error(DecodeError, why))
  }

  /** What an upload did: the request it sent, if any, and what it returned. */
  datatype UploadRun = UploadRun(sent: Option<HttpRequest>, result: Result<Json, Error>)

  function NotFoundMessage(path: string): string { "Bestand niet gevonden: " + path }

  /** What `upload_media` returns or raises. It depends only on whether the
      file exists and on the service's answer: a missing file raises before
      any request, a decoded mapping is returned as it is, any other decoded
      value is wrapped as `{"items": value}`. */
  function UploadAnswer(files: map<string, Bytes>, imagePath: string, answer: HttpOutcome): (r: Result<Json, Error>)
    ensures imagePath !in files ==> r == Failure(Error(FileNotFoundError, NotFoundMessage(imagePath)))
    ensures r.Success? ==> r.value.JObj?
  {
    if imagePath !in files then Failure(Error(FileNotFoundError, NotFoundMessage(imagePath)))
    else
      match RequestJson(answer)
      case Failure(e) => Failure(e)
      case Success(v) => if v.JObj? then Success(v) else Success(JObj([("items", v)]))
  }

  /** `upload_media`: `files` is the file system, `mimeGuess` what mimetypes
      guesses for the file name, `hex` the boundary's UUID digits and `answer`
      what the service replies to the request. A request is sent exactly when
      the file exists, and it carries the multipart body of the form fields
      and the file's bytes under the file's name. */
  function UploadMedia(c: FloridayClient, files: map<string, Bytes>, imagePath: string,
                       title: Option<string>, metadata: Fields, mimeGuess: Option<string>,
                       hex: string, answer: HttpOutcome): (run: UploadRun)
    ensures run.sent.None? <==> imagePath !in files
    ensures imagePath in files ==>
              run.sent == Some(UploadRequest(c, MultipartBody(Boundary(hex), FormFields(title, metadata),
                                                              Paths.Name(imagePath), MimeOrDefault(mimeGuess),
                                                              files[imagePath]),
                                             MultipartContentType(Boundary(hex))))
    ensures run.result == UploadAnswer(files, imagePath, answer)
  {
    if imagePath !in files then
      UploadRun(None, UploadAnswer(files, imagePath, answer))
    else
      var boundary := Boundary(hex);
      var body := MultipartBody(boundary, FormFields(title, metadata), Paths.Name(imagePath),
                                MimeOrDefault(mimeGuess), files[imagePath]);
      UploadRun(Some(UploadRequest(c, body, MultipartContentType(boundary))), UploadAnswer(files, imagePath, answer))
  }

  /** Once the request is sent, a decoded mapping comes back unchanged, any
      other decoded value comes back wrapped as `{"items": value}`, and every
      error of the request comes back as it is. */
  lemma UploadResult(c: FloridayClient, files: map<string, Bytes>, imagePath: string,
                     title: Option<string>, metadata: Fields, mimeGuess: Option<string>,
                     hex: string, answer: HttpOutcome)
    requires imagePath in files
    ensures var r := UploadMedia(c, files, imagePath, title, metadata, mimeGuess, hex, answer).result;
            match RequestJson(answer)
            case Failure(e) => r == Failure(e)
            case Success(v) => r == if v.JObj? then Success(v) else Success(JObj([("items", v)]))
  {
  }

  /** The answer `{"id": "media-1"}` to an upload is returned as it is. */
  lemma UploadExample(c: FloridayClient, files: map<string, Bytes>, imagePath: string)
    requires imagePath in files
    ensures var answer := Answered("{\"id\":\"media-1\"}", Success(JObj([("id", JStr("media-1"))])));
            UploadMedia(c, files, imagePath, Some("Demo"), [], Some("image/png"), "0", answer).result
            == Success(JObj([("id", JStr("media-1"))]))
  {
  }

  /** `[item for item in xs if isinstance(item, dict)]` */
  function ObjectsOnly(xs: seq<Json>): (r: seq<Json>)
    ensures |r| <= |xs|
    ensures forall x :: x in r <==> x in xs && x.JObj?
  {
    if xs == [] then []
    else (if xs[0].JObj? then [xs[0]] else []) + ObjectsOnly(xs[1..])
  }

  /** Filtering keeps the order: filtering a concatenation is concatenating
      the filtered pieces. */
  lemma {:induction false} ObjectsOnlyConcat(a: seq<Json>, b: seq<Json>)
    ensures ObjectsOnly(a + b) == ObjectsOnly(a) + ObjectsOnly(b)
  {
    if a == [] {
      assert a + b == b;
    } else {
      assert (a + b)[0] == a[0] && (a + b)[1..] == a[1..] + b;
      ObjectsOnlyConcat(a[1..], b);
    }
  }

  /** A list of mappings only is returned whole; a list holding anything else
      loses exactly that. */
  lemma {:induction false} ObjectsOnlyIdentity(xs: seq<Json>)
    ensures ObjectsOnly(xs) == xs <==> forall i :: 0 <= i < |xs| ==> xs[i].JObj?
  {
    if xs != [] {
      var tail := xs[1..];
      ObjectsOnlyIdentity(tail);
      assert ObjectsOnly(xs) == (if xs[0].JObj? then [xs[0]] else []) + ObjectsOnly(tail);
      if !xs[0].JObj? {
        assert |ObjectsOnly(tail)| < |xs|;
      } else {
        AllObjectsCons(xs);
        assert ObjectsOnly(xs) == xs <==> ObjectsOnly(tail) == tail by {
          assert xs == [xs[0]] + tail;
        }
      }
    }
  }

  lemma AllObjectsCons(xs: seq<Json>)
    requires xs != [] && xs[0].JObj?
    ensures (forall i :: 0 <= i < |xs| ==> xs[i].JObj?)
            <==> (forall j :: 0 <= j < |xs[1..]| ==> xs[1..][j].JObj?)
  {
    if forall j :: 0 <= j < |xs[1..]| ==> xs[1..][j].JObj? {
      forall i | 0 <= i < |xs| ensures xs[i].JObj? {
        if i > 0 { assert xs[i] == xs[1..][i - 1]; }
      }
    }
  }

  /** What a listing did: the request it sent and what it returned. */
  datatype ListRun = ListRun(sent: HttpRequest, result: Result<seq<Json>, Error>)

  /** `list_media`: `answer` is what the service replies to the GET it sends.
      A bare list yields its mappings, a mapping whose "items" is a list
      yields that list's mappings, anything else yields []. Errors of the
      request come back as they are. */
  function ListMedia(c: FloridayClient, answer: HttpOutcome): (run: ListRun)
    ensures run.sent == ListRequest(c)
    ensures RequestJson(answer).Failure? ==> run.result == Failure(RequestJson(answer).error)
    ensures run.result.Success? ==> forall x :: x in run.result.value ==> x.JObj?
  {
    var result :=
      match RequestJson(answer)
      case Failure(e) => Failure(e)
      case Success(payload) =>
        match payload
        case JArr(items) => Success(ObjectsOnly(items))
        case JObj(members) =>
          (match Get(members, "items")
           case Some(JArr(items)) => Success(ObjectsOnly(items))
           case _ => Success([]))
        case _ => Success([]);
    ListRun(ListRequest(c), result)
  }

  /** Every mapping of the listed array is returned, in order, and nothing
      else; any payload that is neither an array nor a mapping holding one
      lists nothing. */
  lemma ListMediaItems(c: FloridayClient, answer: HttpOutcome, payload: Json)
    requires RequestJson(answer) == Success(payload)
    ensures var listed := if payload.JArr? then Some(payload.items)
                          else if payload.JObj? && Get(payload.members, "items").Some?
                                  && Get(payload.members, "items").value.JArr?
                          then Some(Get(payload.members, "items").value.items)
                          else None;
            match listed
            case Some(xs) => ListMedia(c, answer).result == Success(ObjectsOnly(xs))
            case None => ListMedia(c, answer).result == Success([])
  {
  }

  /** `{"items":[{"id":"1","title":"Rose"}]}` lists exactly that one item. */
  lemma ListMediaExample(c: FloridayClient)
    ensures var rose := JObj([("id", JStr("1")), ("title", JStr("Rose"))]);
            var answer := Answered("{\"items\":[{\"id\":\"1\",\"title\":\"Rose\"}]}",
                                   Success(JObj([("items", JArr([rose]))])));
            ListMedia(c, answer).result == Success([rose])
  {
    var rose := JObj([("id", JStr("1")), ("title", JStr("Rose"))]);
    assert ObjectsOnly([rose]) == [rose];
  }
}

=== FILE: failures.dfy ===
/**
 * The exceptions the core raises or lets through. Every Python exception is
 * modelled by its class and by the text `str(exc)` yields, which is what the
 * web handler embeds in its error pages and JSON bodies.
 */
module Failures {

  datatype Kind =
    | ValueError          // raised by FloridayClient.__init__ for a missing token
    | FileNotFoundError   // a file that upload_media or remove_background needs is absent
    | RuntimeError        // a non-2xx answer, or the background remover is not installed
    | TransportError      // urlopen failed without an HTTP answer (host unreachable, timeout)
    | DecodeError         // json.loads refused the response text
    | RemovalError        // the external background remover itself raised
    | OSError             // writing the temporary copy of an upload failed (a full disk, say)
    | FormError           // cgi could not read the request body as a form

  datatype Error = Error(kind: Kind, message: string)
}

=== FILE: json.dfy ===
/**
 * The JSON values `json.loads` hands back, as the Python objects they become:
 * None, bool, int, str, list and dict. A dict keeps its insertion order, as a
 * Python dict does. Its keys are taken to be distinct, as in every answer
 * the service gives; nothing here enforces it.
 */
module Json {

  import opened Wrappers
  import Text

  datatype Json =
    | JNull
    | JBool(b: bool)
    | JNum(n: int)
    | JStr(s: string)
    | JArr(items: seq<Json>)
    | JObj(members: seq<(string, Json)>)

  /** The empty dict `{}`. */
  const EmptyObject: Json := JObj([])

  /** `d.get(key)`: the value stored under key, if any. */
  function Get(members: seq<(string, Json)>, key: string): (r: Option<Json>)
    ensures r.Some? <==> exists i :: 0 <= i < |members| && members[i].0 == key
    ensures r.Some? ==> exists i :: 0 <= i < |members| && members[i] == (key, r.value)
  {
    if members == [] then None
    else if members[0].0 == key then Some(members[0].1)
    else
      var r := Get(members[1..], key);
      assert forall i :: 0 < i < |members| ==> members[i] == members[1..][i - 1];
      r
  }

  /** `str(n)` for any integer. */
  function IntToString(n: int): string {
    if n < 0 then "-" + Text.NatToString(-n) else Text.NatToString(n)
  }

  /** `str(v)` of a decoded JSON value, i.e. Python's repr of it. Strings are
      shown between single quotes without Python's escaping of quotes and
      control characters. */
  function Repr(v: Json): (r: string)
    ensures r != []
    ensures v.JArr? ==> r[0] == '[' && r[|r| - 1] == ']'
    ensures v.JObj? ==> r[0] == '{' && r[|r| - 1] == '}'
    ensures v.JStr? ==> r[0] == '\'' && r[|r| - 1] == '\''
    decreases v
  {
    match v
    case JNull => "None"
    case JBool(b) => if b then "True" else "False"
    case JNum(n) => IntToString(n)
    case JStr(s) => "'" + s + "'"
    case JArr(items) =>
      "[" + JoinStrings(", ", seq(|items|, i requires 0 <= i < |items| => Repr(items[i]))) + "]"
    case JObj(members) =>
      "{" + JoinStrings(", ", seq(|members|, i requires 0 <= i < |members| =>
                                    "'" + members[i].0 + "': " + Repr(members[i].1))) + "}"
  }

  /** `print` of the upload answer `{"id": "media-1"}`. */
  lemma ReprObjectExample()
    ensures Repr(JObj([("id", JStr("media-1"))])) == "{'id': 'media-1'}"
  {
    var members := [("id", JStr("media-1"))];
    var one := seq(|members|, i requires 0 <= i < |members| => "'" + members[i].0 + "': " + Repr(members[i].1));
    assert Repr(JStr("media-1")) == "'media-1'";
    assert one[0] == "'id': 'media-1'";
    assert one == ["'id': 'media-1'"];
  }

  /** `print` of a list holding a negative number, False and None. */
  lemma ReprListExample()
    ensures Repr(JArr([JNum(-12), JBool(false), JNull])) == "[-12, False, None]"
  {
    var items := [JNum(-12), JBool(false), JNull];
    var three := seq(|items|, i requires 0 <= i < |items| => Repr(items[i]));
    assert Text.NatToString(12) == "12" by {
      assert Text.NatToString(1) == "1";
    }
    assert three[0] == "-12" && three[1] == "False" && three[2] == "None";
    assert three == ["-12", "False", "None"];
    assert JoinStrings(", ", three[1..]) == "False, None" by {
      assert three[1..][1..] == ["None"];
      assert JoinStrings(", ", ["None"]) == "None";
    }
    assert JoinStrings(", ", three) == "-12" + ", " + "False, None";
  }

  /** `sep.join(parts)` for strings. */
  function JoinStrings(sep: string, parts: seq<string>): string {
    if parts == [] then ""
    else if |parts| == 1 then parts[0]
    else parts[0] + sep + JoinStrings(sep, parts[1..])
  }
}

=== FILE: magic_wand.dfy ===
/**
 * `remove_background`: the step that turns the input image into a
 * transparent PNG. The background remover itself (the `rembg` package) is an
 * outside library; the model is handed what it does for this call.
 */
module MagicWand {

  import opened Wrappers
  import opened Failures
  import Text

  type Bytes = Text.Bytes

  /** The remover as this run finds it: not installed, or installed and
      either producing the PNG bytes or raising with some message. */
  datatype Remover =
    | NotInstalled
    | Removes(outcome: Result<Bytes, string>)

  const InputMissingPrefix: string := "Inputbestand bestaat niet: "
  const DependencyMissingMessage: string :=
    "Dependency 'rembg' ontbreekt. Installeer requirements.txt of gebruik --dry-run tests."

  /** What a removal leaves behind: the file system and either the output
      path or the exception it raised. */
  datatype Removal = Removal(files: map<string, Bytes>, result: Result<string, Error>)

  /** A missing input raises FileNotFoundError before anything else happens;
      a remover that is not installed raises RuntimeError; otherwise the
      remover's bytes are written to the output path and that path is
      returned. No file but the output is ever written. */
  function RemoveBackground(files: map<string, Bytes>, input: string, output: string,
                            remover: Remover): (r: Removal)
    ensures input !in files ==>
              r == Removal(files, Failure(Error(FileNotFoundError, InputMissingPrefix + input)))
    ensures input in files && remover.NotInstalled? ==>
              r == Removal(files, Failure(Error(RuntimeError, DependencyMissingMessage)))
    ensures r.result.Success? <==> input in files && remover.Removes? && remover.outcome.Success?
    ensures r.result.Success? ==> r.result.value == output && r.files == files[output := remover.outcome.value]
    ensures r.result.Failure? ==> r.files == files
  {
    if input !in files then
      Removal(files, Failure(Error(FileNotFoundError, InputMissingPrefix + input)))
    else
      match remover
      case NotInstalled => Removal(files, Failure(Error(RuntimeError, DependencyMissingMessage)))
      case Removes(Failure(why)) => Removal(files, Failure(Error(RemovalError, why)))
      case Removes(Success(png)) => Removal(files[output := png], Success(output))
  }

  /** Removal touches no file but its output: every other path keeps its
      contents, and the input is still there afterwards. */
  lemma RemovalKeepsOtherFiles(files: map<string, Bytes>, input: string, output: string,
                               remover: Remover, p: string)
    requires p != output
    ensures var after := RemoveBackground(files, input, output, remover).files;
            (p in after <==> p in files) && (p in files ==> after[p] == files[p])
  {
  }
}

=== FILE: paths.dfy ===
/**
 * The parts of `pathlib.PurePosixPath` the core uses: `.name`, `.stem` and
 * the `/` operator. Paths are plain strings with '/' as separator.
 */
module Paths {

  import Text

  /** The text after the last '/' of s (all of s when it has none). */
  function AfterLastSlash(s: string): (r: string)
    ensures '/' !in r
    ensures |r| <= |s| && s[|s| - |r|..] == r
    ensures |r| < |s| ==> s[|s| - |r| - 1] == '/'
  {
    if s == [] || s[|s| - 1] == '/' then []
    else AfterLastSlash(s[..|s| - 1]) + [s[|s| - 1]]
  }

  lemma {:induction false} AfterLastSlashOf(head: string, tail: string)
    requires '/' !in tail
    requires head == [] || head[|head| - 1] == '/'
    ensures AfterLastSlash(head + tail) == tail
  {
    if tail == [] {
      assert head + tail == head;
    } else {
      var s, init, c := head + tail, tail[..|tail| - 1], tail[|tail| - 1];
      assert s[..|s| - 1] == head + init && s[|s| - 1] == c;
      assert '/' !in init && c != '/' by {
        assert tail == init + [c];
      }
      AfterLastSlashOf(head, init);
      assert AfterLastSlash(s) == init + [c];
      assert init + [c] == tail;
    }
  }

  /** `Path(p).name`: the last component, trailing separators ignored. */
  function Name(p: string): (r: string)
    ensures '/' !in r
  {
    AfterLastSlash(Text.RStrip(p, '/'))
  }

  /** `s.rfind(c)`: the index of the last c in s, or -1. */
  function LastIndexOf(s: string, c: char): (i: int)
    ensures -1 <= i < |s|
    ensures i >= 0 ==> s[i] == c
    ensures forall j :: i < j < |s| ==> s[j] != c
  {
    if s == [] then -1
    else if s[|s| - 1] == c then |s| - 1
    else LastIndexOf(s[..|s| - 1], c)
  }

  /** `Path(p).stem`: the name without its last suffix. A leading dot or a
      trailing dot does not start a suffix. */
  function Stem(p: string): (r: string)
    ensures |r| <= |Name(p)| && r == Name(p)[..|r|]
    ensures '/' !in r
  {
    var name := Name(p);
    var i := LastIndexOf(name, '.');
    if 0 < i < |name| - 1 then name[..i] else name
  }

  /** `str(Path(dir) / name)` for a name without separators: the path ends
      in the name, with a separator before it unless the name is all of it. */
  function JoinPath(dir: string, name: string): (r: string)
    ensures |r| >= |name| && r[|r| - |name|..] == name
    ensures |r| > |name| ==> r[|r| - |name| - 1] == '/'
  {
    var d := Text.RStrip(dir, '/');
    if d == [] && dir != [] then "/" + name
    else if d == [] || d == "." then name
    else d + "/" + name
  }

  /** A directory with no trailing slash, other than "" and ".", is joined
      to the name by one slash. */
  lemma JoinPathPlainDir(dir: string, name: string)
    requires dir != [] && dir != "." && Text.RStrip(dir, '/') == dir
    ensures JoinPath(dir, name) == dir + "/" + name
  {
  }

  /** Joining a plain file name onto any directory gives a path whose last
      component is that name. */
  lemma JoinPathName(dir: string, name: string)
    requires name != [] && '/' !in name
    ensures Name(JoinPath(dir, name)) == name
  {
    var d := Text.RStrip(dir, '/');
    var r := JoinPath(dir, name);
    assert r[|r| - 1] == name[|name| - 1];
    assert Text.RStrip(r, '/') == r;
    if r == name {
      AfterLastSlashOf([], name);
      assert [] + name == name;
    } else if d == [] {
      AfterLastSlashOf("/", name);
    } else {
      AfterLastSlashOf(d + "/", name);
      assert d + "/" + name == (d + "/") + name;
    }
  }

  /** A file name of the shape `<base>.<ext>` in some directory has stem
      `<base>`: the shape NamedTemporaryFile gives its files. */
  lemma StemOfSuffixedName(head: string, base: string, ext: string)
    requires head == [] || head[|head| - 1] == '/'
    requires base != [] && '/' !in base
    requires ext != [] && '/' !in ext && '.' !in ext
    ensures Name(head + base + "." + ext) == base + "." + ext
    ensures Stem(head + base + "." + ext) == base
  {
    var name := base + "." + ext;
    var p := head + base + "." + ext;
    assert p == head + name;
    assert |name| == |base| + 1 + |ext|;
    assert name[|name| - 1] == ext[|ext| - 1];
    NameOfPlainName(head, name);
    LastDotOf(base, ext);
    StemByLastDot(p, name, |base|);
  }

  lemma StemByLastDot(p: string, name: string, k: int)
    requires Name(p) == name && LastIndexOf(name, '.') == k && 0 < k < |name| - 1
    ensures Stem(p) == name[..k]
  {
  }

  lemma NameOfPlainName(head: string, name: string)
    requires head == [] || head[|head| - 1] == '/'
    requires '/' !in name && name != []
    ensures Name(head + name) == name
  {
    var p := head + name;
    assert p[|p| - 1] == name[|name| - 1];
    assert Text.RStrip(p, '/') == p;
    AfterLastSlashOf(head, name);
  }

  lemma LastDotOf(base: string, ext: string)
    requires '.' !in ext
    ensures LastIndexOf(base + "." + ext, '.') == |base|
    ensures (base + "." + ext)[..|base|] == base
  {
    var name := base + "." + ext;
    assert name[|base|] == '.';
    assert name[..|base|] == base;
  }
}

=== FILE: text.dfy ===
/**
 * String and byte helpers that stand for Python built-ins the core relies on:
 * `str.encode()` (UTF-8), `str(int)`, `str.rstrip(c)` and `str.strip()`.
 */
module Text {

  type Bytes = seq<bv8>

  /** The two bytes b"\r\n". */
  const CRLF: Bytes := [13, 10]

  /** Concatenation regroups freely. Stated once so that proofs next to
      recursive functions on sequences need not rediscover it. */
  lemma ConcatAssoc<T>(a: seq<T>, b: seq<T>, c: seq<T>)
    ensures a + b + c == a + (b + c)
  {
  }

  /** A sequence is what comes before position p, the element there, and
      what comes after. */
  lemma SplitAt<T>(s: seq<T>, p: int)
    requires 0 <= p < |s|
    ensures s == s[..p] + [s[p]] + s[p + 1..]
  {
  }

  // ---------------------------------------------------------------- UTF-8

  /** A UTF-8 continuation byte carrying the low six bits of x. */
  function Continuation(x: nat): (r: bv8)
    ensures 0x80 <= r < 0xC0
  {
    (0x80 + x % 64) as bv8
  }

  /** A UTF-8 leading byte: the marker bits `tag` followed by the high bits x. */
  function Leading(tag: nat, x: nat): (r: bv8)
    requires 0xC0 <= tag && tag + x < 0x100
    ensures r >= 0xC0
  {
    (tag + x) as bv8
  }

  /** UTF-8 encoding of one Unicode scalar value. */
  function EncodeChar(c: char): (r: Bytes)
    ensures 1 <= |r| <= 4
    ensures |r| == 1 <==> c as int < 0x80
    ensures c as int < 0x80 ==> r == [c as int as bv8]
  {
    var n: nat := c as int;
    if n < 0x80 then [n as bv8]
    else if n < 0x800 then [Leading(0xC0, n / 64), Continuation(n)]
    else if n < 0x10000 then [Leading(0xE0, n / 4096), Continuation(n / 64), Continuation(n)]
    else
      assert n < 0x110000;
      [Leading(0xF0, n / 262144), Continuation(n / 4096), Continuation(n / 64), Continuation(n)]
  }

  /** `s.encode()`: the UTF-8 bytes of a string. */
  function Encode(s: string): (r: Bytes)
    ensures |s| <= |r| <= 4 * |s|
  {
    if s == [] then [] else EncodeChar(s[0]) + Encode(s[1..])
  }

  /** Encoding distributes over concatenation, so an encoded f-string is the
      concatenation of its encoded pieces. */
  lemma {:induction false} EncodeConcat(a: string, b: string)
    ensures Encode(a + b) == Encode(a) + Encode(b)
  {
    if a == [] {
      assert a + b == b;
    } else {
      assert (a + b)[1..] == a[1..] + b;
      EncodeConcat(a[1..], b);
    }
  }

  // ------------------------------------------------------- str(int)

  predicate IsDigit(c: char) { '0' <= c <= '9' }

  /** `str(n)` for a non-negative integer: its decimal digits, no leading zero. */
  function NatToString(n: nat): (r: string)
    ensures |r| >= 1
    ensures forall i :: 0 <= i < |r| ==> IsDigit(r[i])
    ensures r[0] == '0' ==> n == 0
  {
    if n < 10 then ['0' + n as char]
    else NatToString(n / 10) + ['0' + (n % 10) as char]
  }

  /** The number a string of decimal digits stands for (an independent reading of digits). */
  function DigitsValue(s: string): nat
    requires forall i :: 0 <= i < |s| ==> IsDigit(s[i])
  {
    if s == [] then 0
    else
      assert IsDigit(s[|s| - 1]);
      10 * DigitsValue(s[..|s| - 1]) + (s[|s| - 1] as int - '0' as int)
  }

  /** Reading back the decimal text of n gives n. */
  lemma {:induction false} NatToStringRoundTrip(n: nat)
    ensures DigitsValue(NatToString(n)) == n
  {
    var r := NatToString(n);
    if n >= 10 {
      NatToStringRoundTrip(n / 10);
      assert r[..|r| - 1] == NatToString(n / 10);
    }
  }

  // ------------------------------------------------------- str.rstrip(c)

  /** `s.rstrip(c)`: s with every trailing occurrence of c removed. */
  function RStrip(s: string, c: char): (r: string)
    ensures |r| <= |s| && r == s[..|r|]
    ensures forall i :: |r| <= i < |s| ==> s[i] == c
    ensures r == [] || r[|r| - 1] != c
  {
    if s != [] && s[|s| - 1] == c then RStrip(s[..|s| - 1], c) else s
  }

  /** Appending more copies of c does not change what `rstrip(c)` keeps. */
  lemma {:induction false} RStripIgnoresTrailing(s: string, c: char, n: nat)
    ensures RStrip(s + seq(n, _ => c), c) == RStrip(s, c)
  {
    if n > 0 {
      var longer := s + seq(n, _ => c);
      assert longer[..|longer| - 1] == s + seq(n - 1, _ => c);
      assert longer[|longer| - 1] == c;
      RStripIgnoresTrailing(s, c, n - 1);
    } else {
      assert s + seq(n, _ => c) == s;
    }
  }

  /** The three facts RStrip ensures pin its result down: any prefix of s that
      leaves only c behind and does not itself end in c is RStrip(s, c). */
  lemma RStripUnique(s: string, c: char, p: string)
    requires |p| <= |s| && p == s[..|p|]
    requires forall i :: |p| <= i < |s| ==> s[i] == c
    requires p == [] || p[|p| - 1] != c
    ensures p == RStrip(s, c)
  {
  }

  // ------------------------------------------------------- str.strip()

  /** Python's `str.isspace()` for one character. */
  predicate IsSpace(c: char) {
    var n := c as int;
    (0x09 <= n <= 0x0D) || (0x1C <= n <= 0x20) || n == 0x85 || n == 0xA0 || n == 0x1680 ||
    (0x2000 <= n <= 0x200A) || n == 0x2028 || n == 0x2029 || n == 0x202F || n == 0x205F ||
    n == 0x3000
  }

  predicate Blank(s: string) {
    forall i :: 0 <= i < |s| ==> IsSpace(s[i])
  }

  function LStripSpace(s: string): (r: string)
    ensures r == [] || !IsSpace(r[0])
    ensures |r| <= |s| && r == s[|s| - |r|..]
    ensures Blank(s[..|s| - |r|])
  {
    if s != [] && IsSpace(s[0]) then LStripSpace(s[1..]) else s
  }

  function RStripSpace(s: string): (r: string)
    ensures r == [] || !IsSpace(r[|r| - 1])
    ensures |r| <= |s| && r == s[..|r|]
    ensures Blank(s[|r|..])
  {
    if s != [] && IsSpace(s[|s| - 1]) then RStripSpace(s[..|s| - 1]) else s
  }

  /** r is the run of s that starts at i, with only whitespace before and
      after it. */
  predicate Trims(s: string, r: string, i: int) {
    0 <= i && i + |r| <= |s| && r == s[i..i + |r|] && Blank(s[..i]) && Blank(s[i + |r|..])
  }

  /** `s.strip()`: s without leading and trailing whitespace. The result is
      a run of s with only whitespace around it, it neither starts nor ends
      with whitespace, and it is empty exactly when every character of s is
      whitespace. */
  function Strip(s: string): (r: string)
    ensures |r| <= |s|
    ensures exists i :: Trims(s, r, i)
    ensures r == [] || (!IsSpace(r[0]) && !IsSpace(r[|r| - 1]))
    ensures r == [] <==> Blank(s)
  {
    var left := LStripSpace(s);
    LStripSpaceEmpty(s);
    RStripSpaceEmpty(left);
    StripTrims(s, left);
    RStripSpace(left)
  }

  /** Stripping whitespace from both ends leaves a run of s framed by whitespace. */
  lemma StripTrims(s: string, left: string)
    requires left == LStripSpace(s)
    ensures Trims(s, RStripSpace(left), |s| - |left|)
  {
    var r := RStripSpace(left);
    var i := |s| - |left|;
    SliceOfSuffix(s, i, |r|);
    assert left == s[i..];
    assert s[i..i + |r|] == r;
    assert Blank(s[..i]);
    assert Blank(s[i + |r|..]);
    assert Trims(s, r, i);
  }

  /** Slicing a suffix is slicing the whole sequence further along. */
  lemma SliceOfSuffix<T>(s: seq<T>, i: int, n: int)
    requires 0 <= i && 0 <= n && i + n <= |s|
    ensures s[i..][..n] == s[i..i + n] && s[i..][n..] == s[i + n..]
  {
  }

  lemma {:induction false} LStripSpaceEmpty(s: string)
    ensures LStripSpace(s) == [] <==> Blank(s)
  {
    if s != [] && IsSpace(s[0]) {
      LStripSpaceEmpty(s[1..]);
      assert Blank(s[1..]) ==> Blank(s) by {
        if Blank(s[1..]) {
          forall i | 0 <= i < |s| ensures IsSpace(s[i]) {
            if i > 0 { assert s[i] == s[1..][i - 1]; }
          }
        }
      }
    }
  }

  lemma {:induction false} RStripSpaceEmpty(s: string)
    ensures RStripSpace(s) == [] <==> Blank(s)
  {
    if s != [] && IsSpace(s[|s| - 1]) {
      RStripSpaceEmpty(s[..|s| - 1]);
    }
  }

  // ------------------------------------------------------- search

  /** `t in s` for byte strings: t occurs in s as a contiguous run. */
  predicate Infix(t: Bytes, s: Bytes) {
    exists i :: 0 <= i <= |s| - |t| && s[i..][..|t|] == t
  }

  predicate StartsWith(s: Bytes, p: Bytes) {
    |p| <= |s| && s[..|p|] == p
  }

  predicate EndsWith(s: Bytes, q: Bytes) {
    |q| <= |s| && s[|s| - |q|..] == q
  }

  lemma InfixOfConcat(p: Bytes, t: Bytes, q: Bytes)
    ensures Infix(t, p + t + q)
  {
    assert (p + t + q)[|p|..][..|t|] == t;
  }

  lemma InfixSelf(t: Bytes)
    ensures Infix(t, t)
  {
    assert t[0..][..|t|] == t;
  }

  lemma InfixLeft(t: Bytes, p: Bytes, u: Bytes)
    requires Infix(t, u)
    ensures Infix(t, p + u)
  {
    var i :| 0 <= i <= |u| - |t| && u[i..][..|t|] == t;
    assert (p + u)[|p| + i..][..|t|] == u[i..][..|t|];
  }

  lemma InfixRight(t: Bytes, u: Bytes, q: Bytes)
    requires Infix(t, u)
    ensures Infix(t, u + q)
  {
    var i :| 0 <= i <= |u| - |t| && u[i..][..|t|] == t;
    assert (u + q)[i..][..|t|] == u[i..][..|t|];
  }

  lemma InfixTransitive(t: Bytes, u: Bytes, s: Bytes)
    requires Infix(t, u) && Infix(u, s)
    ensures Infix(t, s)
  {
    var i :| 0 <= i <= |u| - |t| && u[i..][..|t|] == t;
    var j :| 0 <= j <= |s| - |u| && s[j..][..|u|] == u;
    forall k | 0 <= k < |t| ensures s[j + i..][k] == t[k] {
      assert s[j + i..][k] == s[j..][..|u|][i + k];
    }
    assert s[j + i..][..|t|] == t;
  }

  lemma StartsWithRight(s: Bytes, p: Bytes, q: Bytes)
    requires StartsWith(s, p)
    ensures StartsWith(s + q, p)
  {
    assert (s + q)[..|p|] == s[..|p|];
  }

  lemma EndsWithLeft(s: Bytes, p: Bytes, q: Bytes)
    requires EndsWith(s, q)
    ensures EndsWith(p + s, q)
  {
    assert (p + s)[|p + s| - |q|..] == s[|s| - |q|..];
  }

  lemma EndsWithPair(s: Bytes, a: Bytes, b: Bytes)
    ensures EndsWith(s + a + b, a + b)
  {
    assert (s + a + b)[|s|..] == a + b;
  }
}

=== FILE: trace.dfy ===
/** The collaborators a request or a CLI run invokes, in the order it invokes them. */
module Trace {

  import Wrappers

  datatype Call =
    | RemoveBackground(input: string, output: string)
    | ConstructClient
    | UploadMedia(path: string, title: Wrappers.Option<string>)
    | ListMedia
}

=== FILE: web.dfy ===
/**
 * The decision logic of `MagicWandHandler`: which answer each request gets,
 * which collaborators it calls, in what order, and what happens to the
 * temporary copy of an uploaded image.
 */
module Web {

  import opened Wrappers
  import opened Failures
  import opened Json
  import Text
  import Paths
  import Client
  import MagicWand
  import Trace
  import opened Workflow

  type Bytes = Text.Bytes

  const StatusOk: int := 200
  const StatusBadRequest: int := 400
  const StatusNotFound: int := 404
  const StatusBadGateway: int := 502

  const IndexPath: string := "/"
  const MediaPath: string := "/api/media"
  const UploadPath: string := "/upload"

  /** An answer as the handler writes it: the index page (`_send_html`, the
      page being `render_index_html(message)`) or a JSON document
      (`_send_json`), each with its status. */
  datatype Response =
    | Page(status: int, message: string)
    | JsonReply(status: int, payload: Json)

  function ErrorPayload(message: string): Json { JObj([("error", JStr(message))]) }

  const NotFoundReply: Response := JsonReply(StatusNotFound, ErrorPayload("Not found"))
  const NoImageMessage: string := "Geen afbeelding geüpload."
  const UploadFailedPrefix: string := "Upload mislukt: "
  const UploadSucceededPrefix: string := "Upload succesvol: "
  const OutputDir: string := "output"

  /** The form's `image` entry: absent, present without a file, or an uploaded
      file; or no entry can be looked up at all, because `cgi.FieldStorage`
      could not read the body as a form and the parse or the lookup
      `"image" in form` raised. */
  datatype ImageField = NoImage | ImageWithoutFile | ImageFile(content: Bytes) | FormUnreadable(error: Error)

  /** What staging the uploaded image in the temporary file did: the whole
      image was written; the copy (or the flush when the file is closed)
      raised after writing some bytes; or `NamedTemporaryFile` itself raised
      (an unwritable temporary directory, say) before any file existed. */
  datatype CopyOutcome = Copied | CopyFailed(written: Bytes, error: Error) | CreateFailed(error: Error)

  /** What `form.getvalue("title")` yields: nothing, one text value, or
      something else (a list of values when the field is repeated). */
  datatype TitleField = NoTitle | TitleText(text: string) | TitleNotText

  /** The title handed to the upload: the text itself, unstripped, when it
      has some non-whitespace character, and nothing otherwise. */
  function NormaliseTitle(field: TitleField): (t: Option<string>)
    ensures t.Some? <==> field.TitleText? && !Text.Blank(field.text)
    ensures t.Some? ==> t.value == field.text
  {
    if field.TitleText? && Text.Strip(field.text) != [] then Some(field.text) else None
  }

  lemma NormaliseTitleExamples()
    ensures NormaliseTitle(TitleText(" \t\n")) == None
    ensures NormaliseTitle(TitleText(" Rose ")) == Some(" Rose ")
    ensures NormaliseTitle(TitleNotText) == None
  {
    assert Text.Blank(" \t\n");
    assert !Text.IsSpace(" Rose "[1]);
  }

  /** The processed image goes into `output/`, named after the temporary
      file: `Path("output") / f"{temp.stem}-transparent.png"`. */
  lemma ProcessedPathJoins(tempPath: string)
    ensures CutoutPath(OutputDir, tempPath) == OutputDir + "/" + Paths.Stem(tempPath) + CutoutSuffix
  {
    var stem := Paths.Stem(tempPath);
    var name := stem + CutoutSuffix;
    Text.ConcatAssoc(OutputDir + "/", stem, CutoutSuffix);
    OutputStaysPut();
    Paths.JoinPathPlainDir(OutputDir, name);
  }

  lemma OutputStaysPut()
    ensures Text.RStrip(OutputDir, '/') == OutputDir
  {
  }

  /** A temporary file `<dir>/<base>.<ext>` (the server's files end in
      `.upload`) is processed into `output/<base>-transparent.png`. */
  lemma ProcessedPathOfTemp(dir: string, base: string, ext: string)
    requires dir == [] || dir[|dir| - 1] == '/'
    requires base != [] && '/' !in base
    requires ext != [] && '/' !in ext && '.' !in ext
    ensures CutoutPath(OutputDir, dir + base + "." + ext) == OutputDir + "/" + base + CutoutSuffix
  {
    ProcessedPathJoins(dir + base + "." + ext);
    Paths.StemOfSuffixedName(dir, base, ext);
  }

  /** The JSON answer to GET /api/media: the listed items, or a 502 carrying
      the text of whatever construction or listing raised. */
  function MediaReply(client: Result<Client.FloridayClient, Error>, answer: Client.HttpOutcome): (r: Response)
    ensures r.JsonReply?
    ensures r.status == StatusOk <==> client.Success? && Client.ListMedia(client.value, answer).result.Success?
    ensures r.status == StatusOk ==>
              r.payload == JArr(Client.ListMedia(client.value, answer).result.value) &&
              forall x :: x in r.payload.items ==> x.JObj?
    ensures client.Failure? ==> r == JsonReply(StatusBadGateway, ErrorPayload(client.error.message))
    ensures client.Success? && Client.ListMedia(client.value, answer).result.Failure? ==>
              r == JsonReply(StatusBadGateway, ErrorPayload(Client.ListMedia(client.value, answer).result.error.message))
  {
    match client
    case Failure(e) => JsonReply(StatusBadGateway, ErrorPayload(e.message))
    case Success(c) =>
      match Client.ListMedia(c, answer).result
      case Success(items) => JsonReply(StatusOk, JArr(items))
      case Failure(e) => JsonReply(StatusBadGateway, ErrorPayload(e.message))
  }

  /** The page shown after the upload pipeline: the result's `str()` on
      success, the exception's text on failure. */
  function UploadReply(outcome: Result<Json, Error>): (r: Response)
    ensures r.Page?
    ensures r.status == StatusOk <==> outcome.Success?
    ensures r.status != StatusOk ==> r.status == StatusBadGateway
    ensures outcome.Success? ==> r.message == UploadSucceededPrefix + Repr(outcome.value)
    ensures outcome.Failure? ==> r.message == UploadFailedPrefix + outcome.error.message
  {
    match outcome
    case Success(v) => Page(StatusOk, UploadSucceededPrefix + Repr(v))
    case Failure(e) => Page(StatusBadGateway, UploadFailedPrefix + e.message)
  }

  /** Once removal succeeds, the upload always finds the processed file: it
      sends the remover's bytes under the name `<temp stem>-transparent.png`. */
  lemma UploadSendsProcessedImage(c: Client.FloridayClient, files: map<string, Bytes>, tempPath: string,
                                  remover: MagicWand.Remover, title: Option<string>,
                                  mimeGuess: Option<string>, hex: string, answer: Client.HttpOutcome)
    requires tempPath in files && remover.Removes? && remover.outcome.Success?
    ensures var processed := CutoutPath(OutputDir, tempPath);
            var after := MagicWand.RemoveBackground(files, tempPath, processed, remover).files;
            var run := Client.UploadMedia(c, after, processed, title, [], mimeGuess, hex, answer);
            var body := Client.MultipartBody(Client.Boundary(hex), Client.FormFields(title, []),
                                             Paths.Stem(tempPath) + CutoutSuffix,
                                             Client.MimeOrDefault(mimeGuess), remover.outcome.value);
            run.sent.Some? && run.sent.value.data == Some(body) && Text.Infix(remover.outcome.value, body)
  {
    Client.FileInBody(Client.Boundary(hex), Client.FormFields(title, []), Paths.Stem(tempPath) + CutoutSuffix,
                      Client.MimeOrDefault(mimeGuess), remover.outcome.value);
  }

  /** How the upload branch leaves the handler once the image is staged in
      the temporary file (the file system being `staged` then): the
      pipeline's files without the temporary file, the pipeline's calls
      after the earlier ones, and one more answer, the page for the
      pipeline's outcome. */
  predicate UploadServed(ambient: Client.Config, staged: map<string, Bytes>, tempPath: string, processed: string,
                         title: Option<string>, remover: MagicWand.Remover, answer: Client.HttpOutcome,
                         callsBefore: seq<Trace.Call>, sentBefore: seq<Response>,
                         files: map<string, Bytes>, calls: seq<Trace.Call>, sent: seq<Response>)
  {
    var run := Pipeline(ambient, staged, tempPath, processed, title, remover, answer);
    && files == run.files - {tempPath}
    && calls == callsBefore + run.calls
    && sent == sentBefore + [UploadReply(run.outcome)]
  }

  /** One handler, seen across the requests it serves: the file system it
      works in, the answers it has written and the collaborators it called. */
  class Handler {
    const ambient: Client.Config   // the configuration FloridayClient() reads
    var files: map<string, Bytes>
    var sent: seq<Response>
    var calls: seq<Trace.Call>

    constructor (ambient: Client.Config, files: map<string, Bytes>)
      ensures this.ambient == ambient && this.files == files
      ensures sent == [] && calls == []
    {
      this.ambient := ambient;
      this.files := files;
      sent := [];
      calls := [];
    }

    /** `_send_html` / `_send_json`: one more answer written. */
    method Send(r: Response)
      modifies this
      ensures sent == old(sent) + [r]
      ensures files == old(files) && calls == old(calls)
    {
      sent := sent + [r];
    }

    /** `do_GET`: the index page at `/`, the media list at `/api/media`, 404
        anywhere else. Only `/api/media` calls out, and it writes no file. */
    method DoGet(path: string, answer: Client.HttpOutcome)
      modifies this
      ensures files == old(files)
      ensures path == IndexPath ==> calls == old(calls) && sent == old(sent) + [Page(StatusOk, "")]
      ensures path == MediaPath ==>
                var client := Client.NewClient(None, ambient);
                calls == old(calls) + [Trace.ConstructClient] + (if client.Success? then [Trace.ListMedia] else []) &&
                sent == old(sent) + [MediaReply(client, answer)]
      ensures path != IndexPath && path != MediaPath ==> calls == old(calls) && sent == old(sent) + [NotFoundReply]
    {
      if path == IndexPath {
        Send(Page(StatusOk, ""));
        return;
      }
      if path == MediaPath {
        calls := calls + [Trace.ConstructClient];
        var client := Client.NewClient(None, ambient);
        if client.Failure? {
          Send(JsonReply(StatusBadGateway, ErrorPayload(client.error.message)));
          return;
        }
        calls := calls + [Trace.ListMedia];
        var items := Client.ListMedia(client.value, answer).result;
        if items.Failure? {
          Send(JsonReply(StatusBadGateway, ErrorPayload(items.error.message)));
        } else {
          Send(JsonReply(StatusOk, JArr(items.value)));
        }
        return;
      }
      Send(NotFoundReply);
    }

    /** `remove_background(temp_input_path, processed_path)`, recorded. */
    method Remove(tempPath: string, processed: string, remover: MagicWand.Remover)
      returns (result: Result<string, Error>)
      modifies this
      ensures var removal := MagicWand.RemoveBackground(old(files), tempPath, processed, remover);
              files == removal.files && result == removal.result
      ensures sent == old(sent) && calls == old(calls) + [Trace.RemoveBackground(tempPath, processed)]
    {
      calls := calls + [Trace.RemoveBackground(tempPath, processed)];
      var removal := MagicWand.RemoveBackground(files, tempPath, processed, remover);
      files := removal.files;
      result := removal.result;
    }

    /** Client construction and upload of the cleaned file, as `Publish` says. */
    method PublishCleaned(cleaned: string, title: Option<string>, mimeGuess: Option<string>, hex: string,
                          answer: Client.HttpOutcome)
      returns (outcome: Result<Json, Error>)
      modifies this
      ensures sent == old(sent) && files == old(files)
      ensures var run := Publish(ambient, old(files), cleaned, title, answer);
              calls == old(calls) + run.calls && outcome == run.outcome
    {
      var more;
      outcome, more := PublishRun(ambient, files, cleaned, title, mimeGuess, hex, answer);
      calls := calls + more;
    }

    /** The `try` block of `do_POST`, as `Pipeline` says: removal, then
        publishing only after a successful removal. */
    method RunPipeline(tempPath: string, processed: string, title: Option<string>, remover: MagicWand.Remover,
                       mimeGuess: Option<string>, hex: string, answer: Client.HttpOutcome)
      returns (outcome: Result<Json, Error>)
      modifies this
      ensures sent == old(sent)
      ensures var run := Pipeline(ambient, old(files), tempPath, processed, title, remover, answer);
              files == run.files && calls == old(calls) + run.calls && outcome == run.outcome
    {
      ghost var first := [Trace.RemoveBackground(tempPath, processed)];
      ghost var removal := MagicWand.RemoveBackground(files, tempPath, processed, remover);
      var removed := Remove(tempPath, processed, remover);
      if removed.Failure? {
        assert Pipeline(ambient, old(files), tempPath, processed, title, remover, answer)
            == PipelineRun(removal.files, first, Failure(removed.error));
        return Failure(removed.error);
      }
      var cleaned := removed.value;
      ghost var rest := Publish(ambient, files, cleaned, title, answer);
      assert Pipeline(ambient, old(files), tempPath, processed, title, remover, answer)
          == PipelineRun(removal.files, first + rest.calls, rest.outcome);
      outcome := PublishCleaned(cleaned, title, mimeGuess, hex, answer);
      assert calls == (old(calls) + first) + rest.calls;
      Text.ConcatAssoc(old(calls), first, rest.calls);
    }

    /** The upload branch of `do_POST` after the image is staged in the
        temporary file: run the pipeline on it, delete the temporary file
        (the `finally` clause) and report the outcome. */
    method ProcessUpload(title: Option<string>, tempPath: string, processed: string,
                         remover: MagicWand.Remover, mimeGuess: Option<string>, hex: string,
                         answer: Client.HttpOutcome)
      modifies this
      ensures tempPath !in files
      ensures UploadServed(ambient, old(files), tempPath, processed, title, remover, answer,
                           old(calls), old(sent), files, calls, sent)
    {
      ghost var staged := files;
      var outcome := RunPipeline(tempPath, processed, title, remover, mimeGuess, hex, answer);
      ghost var run := Pipeline(ambient, staged, tempPath, processed, title, remover, answer);
      assert files == run.files && outcome == run.outcome;
      Discard(tempPath);
      Send(UploadReply(outcome));
    }

    /** The upload branch of `do_POST`: `NamedTemporaryFile` creates the
        fresh temporary file and the image is copied into it, both before the
        `try`. A creation that raises escapes with no answer and no file; a
        copy that raises leaves the partly written file behind and the
        exception escapes `do_POST` with no answer written; otherwise the
        pipeline runs and the file is deleted again. */
    method ServeUpload(content: Bytes, copy: CopyOutcome, title: Option<string>, tempPath: string,
                       processed: string, remover: MagicWand.Remover, mimeGuess: Option<string>, hex: string,
                       answer: Client.HttpOutcome)
      returns (raised: Option<Error>)
      requires tempPath !in files
      modifies this
      ensures copy.CreateFailed? ==>
                raised == Some(copy.error) && files == old(files) && calls == old(calls) && sent == old(sent)
      ensures copy.CopyFailed? ==>
                raised == Some(copy.error) && files == old(files)[tempPath := copy.written] &&
                tempPath in files && calls == old(calls) && sent == old(sent)
      ensures copy.Copied? ==>
                raised == None && tempPath !in files &&
                UploadServed(ambient, old(files)[tempPath := content], tempPath, processed, title, remover,
                             answer, old(calls), old(sent), files, calls, sent)
    {
      if copy.CreateFailed? {
        return Some(copy.error);
      }
      files := files[tempPath := []];
      if copy.CopyFailed? {
        files := files[tempPath := copy.written];
        return Some(copy.error);
      }
      files := files[tempPath := content];
      assert files == old(files)[tempPath := content];
      ProcessUpload(title, tempPath, processed, remover, mimeGuess, hex, answer);
      raised := None;
    }

    /** The upload branch with the temporary file's creation and the copy
        moved inside the `try`: a failed copy is reported like any other
        failure of the upload (a creation failure too), and the temporary
        file never survives. */
    method ServeUploadGuarded(content: Bytes, copy: CopyOutcome, title: Option<string>, tempPath: string,
                              processed: string, remover: MagicWand.Remover, mimeGuess: Option<string>,
                              hex: string, answer: Client.HttpOutcome)
      requires tempPath !in files
      modifies this
      ensures tempPath !in files
      ensures |sent| == |old(sent)| + 1
      ensures !copy.Copied? ==>
                files == old(files) && calls == old(calls) &&
                sent == old(sent) + [UploadReply(Failure(copy.error))]
      ensures copy.Copied? ==>
                UploadServed(ambient, old(files)[tempPath := content], tempPath, processed, title, remover,
                             answer, old(calls), old(sent), files, calls, sent)
    {
      if copy.CreateFailed? {
        Send(UploadReply(Failure(copy.error)));
        return;
      }
      files := files[tempPath := []];
      if copy.CopyFailed? {
        files := files[tempPath := copy.written];
        Discard(tempPath);
        assert files == old(files);
        Send(UploadReply(Failure(copy.error)));
        return;
      }
      files := files[tempPath := content];
      assert files == old(files)[tempPath := content];
      ProcessUpload(title, tempPath, processed, remover, mimeGuess, hex, answer);
    }

    /** `if path.exists(): path.unlink()` */
    method Discard(path: string)
      modifies this
      ensures files == old(files) - {path} && path !in files
      ensures sent == old(sent) && calls == old(calls)
    {
      if path in files {
        files := files - {path};
      }
    }

    /** `do_POST`: only `/upload` is served, and only with an uploaded image;
        no temporary file is made before both are known. A body that is not
        a form, a temporary file that cannot be created, or a copy into it
        that fails, ends the request with the exception escaping and no
        answer written; every
        other request gets exactly one answer, and then the temporary file
        `tempPath` (fresh when the request starts) is gone. */
    method DoPost(path: string, image: ImageField, title: TitleField, copy: CopyOutcome, tempPath: string,
                  remover: MagicWand.Remover, mimeGuess: Option<string>, hex: string,
                  answer: Client.HttpOutcome)
      returns (raised: Option<Error>)
      requires tempPath !in files
      modifies this
      ensures raised.None? ==> tempPath !in files && |sent| == |old(sent)| + 1
      ensures raised.Some? ==> sent == old(sent) && calls == old(calls)
      ensures path != UploadPath ==>
                raised == None && files == old(files) && calls == old(calls) && sent == old(sent) + [NotFoundReply]
      ensures path == UploadPath && image.FormUnreadable? ==>
                raised == Some(image.error) && files == old(files)
      ensures path == UploadPath && (image.NoImage? || image.ImageWithoutFile?) ==>
                raised == None && files == old(files) && calls == old(calls) &&
                sent == old(sent) + [Page(StatusBadRequest, NoImageMessage)]
      ensures path == UploadPath && image.ImageFile? && copy.CreateFailed? ==>
                raised == Some(copy.error) && files == old(files)
      ensures path == UploadPath && image.ImageFile? && copy.CopyFailed? ==>
                raised == Some(copy.error) && files == old(files)[tempPath := copy.written]
      ensures path == UploadPath && image.ImageFile? && copy.Copied? ==>
                raised == None &&
                UploadServed(ambient, old(files)[tempPath := image.content], tempPath,
                             CutoutPath(OutputDir, tempPath), NormaliseTitle(title), remover, answer,
                             old(calls), old(sent), files, calls, sent)
    {
      if path != UploadPath {
        Send(NotFoundReply);
        return None;
      }
      if image.FormUnreadable? {
        return Some(image.error);
      }
      if !image.ImageFile? {
        Send(Page(StatusBadRequest, NoImageMessage));
        return None;
      }
      var processed := CutoutPath(OutputDir, tempPath);
      raised := ServeUpload(image.content, copy, NormaliseTitle(title), tempPath, processed, remover,
                            mimeGuess, hex, answer);
    }
  }

  /** The temporary file outlives a request whose copy fails: the request to
      `/upload` below, with the disk full after one byte, leaves
      `/tmp/rose.upload` behind and writes no answer. */
  method CopyFailureLeaks(ambient: Client.Config) returns (h: Handler)
    ensures "/tmp/rose.upload" in h.files && h.files["/tmp/rose.upload"] == [0x89]
    ensures h.sent == []
  {
    h := new Handler(ambient, map[]);
    var raised := h.DoPost(UploadPath, ImageFile([0x89, 0x50]), NoTitle,
                           CopyFailed([0x89], Error(OSError, "No space left on device")), "/tmp/rose.upload",
                           MagicWand.NotInstalled, None, "", Client.Unreachable(""));
  }
}

=== FILE: workflow.dfy ===
/**
 * The pipeline both front ends run: `remove_background(input, output)`,
 * then `FloridayClient()` and `upload_media(cleaned, title=title)`. The
 * web handler runs it inside `do_POST`'s `try` block; the command line runs
 * it from `main`, unless `--dry-run` stops it after the removal.
 */
module Workflow {

  import opened Wrappers
  import opened Failures
  import opened Json
  import Text
  import Paths
  import Client
  import MagicWand
  import Trace

  type Bytes = Text.Bytes

  /** Both front ends name the cut-out `<stem of the input>-transparent.png`. */
  const CutoutSuffix: string := "-transparent.png"

  /** A cut-out name is a plain file name: not empty and free of '/'. */
  lemma CutoutNamePlain(stem: string)
    requires '/' !in stem
    ensures stem + CutoutSuffix != [] && '/' !in stem + CutoutSuffix
  {
    assert '/' !in CutoutSuffix;
  }

  /** `Path(dir) / f"{Path(input).stem}-transparent.png"`: where the cut-out
      of `input` goes. Its last component is the input's stem followed by the
      suffix, whatever directories the input and `dir` name. */
  function CutoutPath(dir: string, input: string): (r: string)
    ensures Paths.Name(r) == Paths.Stem(input) + CutoutSuffix
  {
    var name := Paths.Stem(input) + CutoutSuffix;
    CutoutNamePlain(Paths.Stem(input));
    Paths.JoinPathName(dir, name);
    Paths.JoinPath(dir, name)
  }

  /** What a run of the pipeline does: the file system it leaves, the
      collaborators it calls and its outcome (the upload's result or the
      first exception raised). */
  datatype PipelineRun = PipelineRun(files: map<string, Bytes>, calls: seq<Trace.Call>,
                                     outcome: Result<Json, Error>)

  /** The part of the pipeline after a successful removal: the client's
      construction and, if that succeeded, the upload of the cleaned file.
      Publishing writes no file; the client is always constructed first, and
      the upload (of the cleaned file, with the given title) is attempted
      exactly when construction succeeded. A construction failure is the
      outcome; otherwise the outcome is `upload_media`'s, so an upload that
      raises makes publishing fail. A successful outcome is always a mapping. */
  function Publish(ambient: Client.Config, files: map<string, Bytes>, cleaned: string,
                   title: Option<string>, answer: Client.HttpOutcome): (r: PipelineRun)
    ensures var client := Client.NewClient(None, ambient);
            && r.files == files
            && |r.calls| >= 1 && r.calls[0] == Trace.ConstructClient
            && (|r.calls| >= 2 <==> client.Success?)
            && (|r.calls| >= 2 ==> |r.calls| == 2 && r.calls[1] == Trace.UploadMedia(cleaned, title))
            && (client.Failure? ==> r.outcome == Failure(client.error))
            && (client.Success? ==> r.outcome == Client.UploadAnswer(files, cleaned, answer))
            && (r.outcome.Success? ==> client.Success? && r.outcome.value.JObj?)
  {
    match Client.NewClient(None, ambient)
    case Failure(e) => PipelineRun(files, [Trace.ConstructClient], Failure(e))
    case Success(c) =>
      PipelineRun(files, [Trace.ConstructClient, Trace.UploadMedia(cleaned, title)],
                  Client.UploadAnswer(files, cleaned, answer))
  }

  /** The whole pipeline: background removal of `tempPath` into `processed`,
      and, if that succeeded, `Publish`. Removal is always the first call and
      the only one when it fails, in which case its exception is the outcome;
      after a successful removal come exactly the calls and the outcome of
      publishing the cleaned file. The pipeline succeeds exactly when the
      removal, the client's construction and the upload all succeed. */
  function Pipeline(ambient: Client.Config, files: map<string, Bytes>, tempPath: string, processed: string,
                    title: Option<string>, remover: MagicWand.Remover, answer: Client.HttpOutcome): (r: PipelineRun)
    ensures var removal := MagicWand.RemoveBackground(files, tempPath, processed, remover);
            && r.files == removal.files
            && |r.calls| >= 1 && r.calls[0] == Trace.RemoveBackground(tempPath, processed)
            && (removal.result.Failure? ==> |r.calls| == 1 && r.outcome == Failure(removal.result.error))
            && (removal.result.Success? ==>
                  var rest := Publish(ambient, removal.files, processed, title, answer);
                  r.calls[1..] == rest.calls && r.outcome == rest.outcome)
            && (r.outcome.Success? <==>
                  removal.result.Success? && Client.NewClient(None, ambient).Success? &&
                  Client.UploadAnswer(removal.files, processed, answer).Success?)
  {
    var removal := MagicWand.RemoveBackground(files, tempPath, processed, remover);
    var first := [Trace.RemoveBackground(tempPath, processed)];
    match removal.result
    case Failure(e) => PipelineRun(removal.files, first, Failure(e))
    case Success(cleaned) =>
      var rest := Publish(ambient, removal.files, cleaned, title, answer);
      PipelineRun(removal.files, first + rest.calls, rest.outcome)
  }

  /** `FloridayClient()` followed by `upload_media(cleaned, title=title)`
      (no metadata), computing what `Publish` says, with the calls made on
      the way. */
  method PublishRun(ambient: Client.Config, files: map<string, Bytes>, cleaned: string, title: Option<string>,
                mimeGuess: Option<string>, hex: string, answer: Client.HttpOutcome)
    returns (outcome: Result<Json, Error>, calls: seq<Trace.Call>)
    ensures calls == Publish(ambient, files, cleaned, title, answer).calls
    ensures outcome == Publish(ambient, files, cleaned, title, answer).outcome
  {
    calls := [Trace.ConstructClient];
    var client := Client.NewClient(None, ambient);
    if client.Failure? {
      return Failure(client.error), calls;
    }
    calls := calls + [Trace.UploadMedia(cleaned, title)];
    var run := Client.UploadMedia(client.value, files, cleaned, title, [], mimeGuess, hex, answer);
    outcome := run.result;
  }
}

=== FILE: wrappers.dfy ===
/** Option and Result, the two failure-carrying shapes the rest of the model uses. */
module Wrappers {

  datatype Option<+T> = None | Some(value: T) {
    function GetOr(default: T): T {
      match this
      case Some(v) => v
      case None => default
    }
  }

  datatype Result<+R, +E> = Success(value: R) | Failure(error: E)
}
